=== FILE: README.md ===
# Investors calculator: a verified model of the investor store

The investors calculator is a console program over a small SQLite database. It has two tables:

- `companies`: ticker, name and sector.
- `financial`: ticker plus nine nullable numbers (EBITDA, sales, net profit, market price, net debt, assets, equity, cash equivalents, liabilities).

The program offers these operations:

- It seeds both tables once from two CSV files.
- It creates, reads, updates and deletes a company. The company is found by a fragment of its name and then picked from the numbered matches.
- It lists all companies in ticker order.
- It reads a company as seven financial ratios, computed with a division that yields the sentinel `None` instead of failing.
- It ranks the ten best companies by one of three indicators (ND/EBITDA, ROE, ROA), which the database computes.
- `new.py` is a separate helper: it picks the member of a set of integers nearest to a target.

The model is organised by the program's own parts:

| module | file | models |
|---|---|---|
| `Models` | `models.dfy` | the two tables as datatypes; the column order; the three indicators as (numerator, denominator) column pairs with SQLite's rounding |
| `Numbers` | `numbers.dfy` | the two-valued ratio; Python's `round(x, 2)` (ties to even) and SQLite's `round(x, 2)` (ties away from zero), on exact reals |
| `Ratios` | `ratios.dfy` | `none_corrected_divide` and the seven ratio lines of `read_company` |
| `CompanyData` | `company_data.dfy` | the prompting loop of `get_company_data`; how its field map is written onto a row |
| `SqlLike` | `like.dfy` | SQLite's `LIKE`, which every lookup goes through: `%` and `_` wildcards, no escape, ASCII case-insensitive |
| `Order` | `order.dfy` | SQLite's BINARY collation on text, used for `ORDER BY ticker` |
| `Selection` | `selection.dfy` | choosing one match by a Python list index, and how the callers unpack the answer |
| `Seeding` | `seeding.dfy` | `get_data_from_csv`'s in-place normalisation of the rows; the object each row builds |
| `Store` | `store.dfy` | the `Database` class: the tables as maps keyed by ticker, the session's pending inserts, the commit, and every operation that reads or changes the tables |
| `Nearest` | `nearest.dfy` | `nearest_value` |
| `Wrappers` | `wrappers.dfy` | `Option` |

Every lookup filters with `LIKE` (main.py:128, 146, 163, 171-172). SQLite's `LIKE` ignores ASCII case and treats `%` and `_` in the fragment or ticker as wildcards. A filter on a ticker can therefore select several rows, or rows that differ from it in case. The model keeps exactly that:

- `SqlLike.LikeExact` and `SqlLike.ContainsLike` show that, for patterns without wildcards, `LIKE` is case-insensitive equality or substring search.
- Read, update and delete act on every row `LIKE` the chosen ticker, not only on the row equal to it.

## Model

| member | source | states |
|---|---|---|
| Models.ColumnIndex | models.py:18-27 | every numeric column has a position among the nine, and the column order holds that column there |
| Models.ColumnName | models.py:18-27 | a numeric column's table name is the entry after `ticker` in the declared column-name order, and is never `ticker` |
| Models.IndexOfColumn | models.py:18-27 | the i-th numeric column in declaration order has position i |
| Models.ColumnsAreExactlyTheNine | models.py:15-27 | there are exactly nine numeric columns; each occurs once in the order; different columns have different names |
| Models.Financial.Set | models.py:15-27 | replacing one column of a row sets that column, keeps the key and leaves every other column as it was |
| Models.BlankFinancial | models.py:19-27 | a row built from its key alone has that key and NULL in every numeric column |
| Models.FinancialExtensionality | models.py:15-27 | two rows with the same key and the same value in each of the nine columns are the same row |
| Models.Indicator.Key | models.py:30-34 | every indicator is offered under a key of the indicator map, and that key names the indicator |
| Models.IndicatorKeys | models.py:30-34 | the indicator map has exactly the keys ND/EBITDA, ROE and ROA, and each key maps to the indicator that carries it |
| Models.Indicator.Numerator | models.py:31-33 | the dividend column of each indicator: net debt for ND/EBITDA, net profit for ROE and for ROA |
| Models.Indicator.Denominator | models.py:31-33 | the divisor column of each indicator: EBITDA for ND/EBITDA, equity for ROE, assets for ROA |
| Models.IndicatorValue | models.py:31-33 | an indicator is NULL exactly when its numerator or denominator is NULL or the denominator is zero; otherwise it lies within 0.005 of the exact quotient |
| Numbers.HalfEven | main.py:123 | Python's integer rounding is at most one half away from its argument, and an exact half goes to the even neighbour |
| Numbers.HalfAway | models.py:31-33 | SQLite's integer rounding is at most one half away from its argument, and an exact half goes away from zero |
| Numbers.PyRound2 | main.py:123 | `round(x, 2)` in Python is within 0.005 of `x` |
| Numbers.SqlRound2 | models.py:31-33 | `round(x, 2)` in SQLite is within 0.005 of `x` |
| Numbers.IntegerUnrounded | main.py:123 | both integer roundings leave a whole number unchanged |
| Numbers.RoundingKeepsCents | main.py:123 | both two-decimal roundings leave a value with at most two decimals unchanged |
| Ratios.SafeDivide | main.py:120-123 | the sentinel exactly when the numerator or the divisor is missing or the divisor is zero; otherwise Python's two-decimal rounding of the quotient, within 0.005 of it |
| Ratios.Report | main.py:148-154 | the report has exactly one line per labelled column pair, seven in all |
| Ratios.ReportFollowsPairs | main.py:148-154 | line i of the report carries the i-th label and the safe quotient of the i-th column pair: P/E, P/S, P/B, ND/EBITDA, ROE, ROA, L/A |
| Ratios.ReportLine | main.py:151-153 | each ranking indicator has a report line with its own key as label and its own numerator and denominator |
| Ratios.IndicatorAgreesWithReport | models.py:31-33 | an indicator and the report line of the same name are undefined together, and otherwise differ by at most 0.01, the two rounding rules apart |
| Ratios.SafeDivideExact | main.py:120-123 | a quotient with at most two decimals is reported exactly |
| Ratios.MoonScenario | main.py:152-153 | net profit 100, equity 50 and assets 200 report ROE 2.0 and ROA 0.5 |
| Ratios.MissingEbitdaScenario | main.py:151 | a row without EBITDA reports ND/EBITDA as the sentinel |
| Ratios.EquityUpdateScenario | main.py:152 | after equity is set to 25 the ROE line reads 4.0, and the ROA line is unchanged |
| CompanyData.Captures | main.py:99-106 | a field map captures the answers when it holds a column with a value exactly when that column's answer parsed to that value |
| CompanyData.GetFinancialData | main.py:92-106 | the field map holds exactly the columns whose answer parsed, each with its parsed value, in column order, each at most once; the ticker is included exactly when the call is not an update |
| CompanyData.FromPromptsStep | main.py:100-105 | one prompt keeps every field tied to an earlier prompt whose answer parsed to the field's value |
| CompanyData.AllParsedKeptStep | main.py:100-105 | one prompt keeps a field for every parsed answer so far |
| CompanyData.InColumnOrderStep | main.py:100-105 | one prompt keeps the field map in column order |
| CompanyData.Assigned | main.py:163 | the value a field map gives a column: its last entry for that column, or nothing when it has none |
| CompanyData.AssignedComesFromFields | main.py:163 | the value a field map assigns to a column is one of its entries for that column, and an unassigned column has no entry |
| CompanyData.CapturedIsAssigned | main.py:99-106 | for a field map built from the prompts, each column is assigned exactly what its answer parsed to, or nothing |
| CompanyData.ApplyFields | main.py:163 | the row after `UPDATE ... SET` with the field map: each entry sets its column in turn, starting from the old row |
| CompanyData.ApplyFieldsGet | main.py:163 | writing a field map onto a row keeps the key, sets every assigned column and leaves every other column |
| CompanyData.NewFinancial | main.py:112-115 | the row `Financial(**data)` builds: the ticker, every mapped column with its value, NULL in every other column |
| CompanyData.NewFinancialHoldsParsed | main.py:112-115 | the row built for a new company has the ticker and, in every column, exactly the parsed answer (NULL when it did not parse) |
| CompanyData.UpdateKeepsUnparsed | main.py:160-163 | an update writes each parsed answer into its column and leaves unparsed columns and the key unchanged |
| SqlLike.Like | main.py:128 | SQLite's `s LIKE p` with default settings: `%` matches any run of characters, `_` any one character, there is no escape, and other characters match up to ASCII case; the same operator filters tickers at main.py:146, 163 and 171-172 |
| SqlLike.Fold | main.py:128 | `LIKE`'s folding lowers ASCII capitals by 32 code points and leaves every other character |
| SqlLike.LikeSelf | main.py:171-172 | every ticker is `LIKE` itself, wildcards included, so a filter on a ticker always selects that ticker's own row |
| SqlLike.LikeAnything | main.py:128 | `%` matches every string, so the empty fragment matches every named company |
| SqlLike.LeadingPercent | main.py:128 | a pattern `%rest` matches exactly when some suffix of the string matches `rest` |
| SqlLike.TrailingPercent | main.py:128 | for a fragment without wildcards, `f%` matches exactly the strings that begin with `f`, up to ASCII case |
| SqlLike.ContainsLike | main.py:128 | for a fragment without wildcards, `%f%` matches exactly the strings that contain `f` somewhere, up to ASCII case |
| SqlLike.LikeExact | main.py:146 | for a pattern without wildcards, `LIKE` is equality up to ASCII case |
| SqlLike.NameCaseIsIgnored | main.py:128 | the name "Moon Corp" matches the fragment "moon" |
| SqlLike.TickerCaseIsIgnored | main.py:146 | the ticker "MOON" is `LIKE` "moon" |
| Order.Below | main.py:178 | SQLite's BINARY collation used by `order_by(Companies.ticker)`: compare code point by code point, and a proper prefix sorts first |
| Order.BelowIrreflexive | main.py:178 | no ticker sorts before itself |
| Order.BelowTransitive | main.py:178 | the ticker order is transitive |
| Order.BelowTotal | main.py:178 | of two different tickers, one sorts before the other |
| Order.BelowAsymmetric | main.py:178 | two tickers never sort before each other |
| Selection.NameMatches | main.py:128 | `Companies.name.like("%fragment%")`: the name is not NULL and contains the fragment, under `LIKE`'s wildcards and case folding |
| Selection.Select | main.py:129-140 | with no match the lookup finds nothing; with matches, a missing or non-integer choice, or an index outside [-n, n), is invalid; otherwise the match at that index is chosen, with a negative index counted from the end |
| Selection.NegativeIndexFromEnd | main.py:136 | index -k chooses the same company as index n-k, for 1 <= k <= n |
| Selection.UnpackAsWritten | main.py:126-144 | the caller's unpacking fails exactly on an invalid choice; no match unpacks to `(None, None)` and a chosen company to its ticker and name |
| Selection.InvalidIndexStopsTheProgram | main.py:135-140 | index 1 on a single match, or a non-integer answer, is an invalid choice, and unpacking it fails |
| Selection.Unpack | main.py:144 | an invalid choice unpacks to no ticker and no name, like no match; a chosen company unpacks to its ticker and name; every other case unpacks as the code does; a ticker comes back exactly when a company was chosen |
| Selection.Target | main.py:145 | an operation goes on exactly when a company was chosen and its ticker is not empty, and then with that ticker |
| Seeding.Normalised | init_db.py:15-18 | normalising keeps the row's keys, turns every empty field into `None`, and keeps every non-empty field |
| Seeding.NormalisedFixesNormal | init_db.py:15-18 | normalising a row without empty fields changes nothing |
| Seeding.Normalise | init_db.py:15-18 | the in-place loops leave every row of the array normalised |
| Seeding.NormalisedRows | init_db.py:14-19 | the normalised rows are as many as the rows read, each the normalised row at the same position |
| Seeding.GetDataFromCsv | init_db.py:10-19 | the returned rows are the rows read, normalised, in the same order |
| Seeding.GetDataFromCsvProperties | init_db.py:14-19 | the normalised rows keep their number, order and keys; hold no empty field, each empty field having become `None`; keep every non-empty field; and normalising them again changes nothing |
| Seeding.CompanyOfRow | init_db.py:24 | a row builds a company exactly when every header is a `companies` column and the ticker is present; the company carries the row's ticker, name and sector |
| Seeding.ColumnValue | init_db.py:24 | the value a `Float` column stores from a CSV field: the field text converted by `float()` when the session flushes, or NULL when the field is missing or empty |
| Seeding.NumbersConvert | models.py:19-27 | every present field other than the ticker is text that `float()` accepts, as the `Float` columns demand when the session flushes |
| Seeding.FinancialRowAccepted | init_db.py:24 | the rows that give a stored financial row: every header a `financial` column, the ticker present, every other present field accepted by `float()` |
| Seeding.FinancialOfRow | init_db.py:24 | a row gives a stored financial row exactly when every header is a `financial` column, the ticker is present and every other present field converts with `float()`; the row carries the ticker |
| Seeding.FinancialOfRowColumn | init_db.py:24 | each numeric column of the built object holds its field converted to a number, NULL when the field is missing or empty; it holds a number exactly when the field is present |
| Seeding.UnconvertibleFieldFails | init_db.py:24 | a numeric field that `float()` rejects, such as `n/a`, makes the row fail whatever the other fields hold |
| Store.InsertRows | init_db.py:39 | INSERT of rows one after another under the primary key: the table with every row added under its key, or failure when a key is already present or repeated among the rows |
| Store.Committed | main.py:116 | `session.commit()` of the pending objects: companies go into `companies` and financial rows into `financial`, each by `InsertRows`, and the commit fails as a whole when either insert fails |
| Store.InsertRowsKeeps | main.py:116 | a successful insert keeps every old row, and its keys are the old keys and those of the new rows |
| Store.InsertRowsGrows | main.py:116 | a successful insert grows the table by exactly one row per record |
| Store.InsertRowsHolds | main.py:116 | after a successful insert every new record is stored under its key |
| Store.InsertRowsKeyed | main.py:116 | an insert into a table whose rows sit under their keys leaves every row under its key |
| Store.InsertRowsEffect | init_db.py:39 | a successful insert keeps the old rows, holds each new row under its key, adds no other key, grows by one row per record, and keeps rows under their keys |
| Store.InsertRowsFails | init_db.py:39 | an insert fails exactly when some record's key is already in the table or repeats an earlier record's |
| Store.CommitCompanyAndRow | main.py:114-116 | committing a new company and its financial row stores both under the ticker, unless either table already holds it, in which case the commit fails |
| Store.RecordOf | init_db.py:22-24 | the object `entity_class(**row)` builds for the chosen table, or failure when that constructor rejects the row |
| Store.BuildAllOnePerElement | init_db.py:23-24 | building succeeds exactly when every element is accepted, and then gives one result per element, in order |
| Store.RecordsOf | init_db.py:22-24 | the objects `insert_to_database` adds: one per row, in row order, or failure when some row is rejected |
| Store.RecordsOfOnePerRow | init_db.py:22-24 | building objects for a table succeeds exactly when every row is accepted, and then gives one object per row, built from that row |
| Store.RecordsOfExtends | init_db.py:23-24 | accepting one more row appends its object to those already built |
| Store.RecordsOfRejects | init_db.py:23-24 | one rejected row rejects the whole list |
| Store.Seed | init_db.py:33-39 | the tables after seeding: the normalised financial rows and then the normalised company rows become objects, and all of them are committed together, or nothing is |
| Store.UnconvertibleFieldStopsSeed | init_db.py:34-39 | a line of the financial file with a numeric field `float()` rejects makes the whole seed fail, so nothing is committed |
| Store.SeedFromRecords | init_db.py:34-39 | seeding commits the financial objects followed by the company objects, and fails when either file has a rejected row |
| Store.CompanyRecordsOfRows | init_db.py:38 | the objects built for `companies` are company objects only, one per line, each the one its line builds |
| Store.FinancialRecordsOfRows | init_db.py:37 | the objects built for `financial` are financial objects only, one per line, each the one its line builds |
| Store.OneTableRecords | init_db.py:37-38 | a list of objects of one table passes the filter for that table whole and in order, and the other filter empty |
| Store.RecordsAppend | init_db.py:37-38 | filtering a concatenation is concatenating the filtered parts |
| Store.SeedSplits | init_db.py:34-39 | a successful seed is one insert per table of the objects built from that table's lines, one per line and in line order |
| Store.SeedAddsOneRowPerLine | init_db.py:34-39 | a successful seed adds exactly one row per line of each file, stored under its ticker and built from that line, and keeps every stored row |
| Store.FirstTicker | main.py:178 | the loop finds the ticker of the set that sorts before every other one |
| Store.ListedRowsStep | main.py:178 | appending the next stored company keeps the listing exactly the stored companies already taken |
| Store.ListedInOrderStep | main.py:178 | appending the smallest remaining ticker keeps the listing ascending and below every remaining ticker |
| Store.IsListing | main.py:178 | a listing holds only stored rows, under their own tickers, holds every stored row, and is in strictly ascending ticker order |
| Store.SortedByTicker | main.py:178 | the listing holds every stored company once, each as stored under its ticker, in ascending ticker order |
| Store.ListingIsUnique | main.py:178 | any two listings of the same table are the same list |
| Store.AscendingTail | main.py:178 | the tail of an ascending list is ascending and holds every member except the head |
| Store.AscendingHeadsAgree | main.py:178 | two ascending lists with the same members begin with the same company |
| Store.AscendingListsAgree | main.py:178 | two ascending lists with the same members are equal |
| Store.KeptRowsStep | main.py:128 | one more row keeps the match list equal to the accepted rows seen so far |
| Store.KeptInOrderStep | main.py:128 | one more row keeps the match list ascending and below every row not yet seen |
| Store.IsMatchList | main.py:128 | a match list holds exactly the stored companies whose name matches the fragment, each as stored, in strictly ascending ticker order |
| Store.KeepMatching | main.py:128 | the matches are exactly the listed rows the filter accepts, in ascending ticker order |
| Store.MatchListIsUnique | main.py:128 | the companies whose name contains the fragment, as an ascending list, are determined by the table |
| Store.AtLeast | main.py:186 | `desc()` order on indicator values in SQLite: a larger number ranks higher, and NULL ranks below every number |
| Store.RankedBefore | main.py:186 | the order of the ranked lines: higher indicator value first, and lines with equal values by ascending ticker |
| Store.RankedBeforeTransitive | main.py:186 | the ranking order is transitive |
| Store.RankedBeforeTotal | main.py:186 | lines of two different tickers are ranked one way or the other |
| Store.FirstRanked | main.py:186 | the loop finds the stored row whose line ranks before every other one of the set |
| Store.RankedRowsStep | main.py:186 | taking one more row keeps the report exactly the lines of the rows taken, at most ten |
| Store.RankedInOrderStep | main.py:186 | taking the best-ranked remaining row keeps the report in ranking order and ahead of every remaining row |
| Store.IsTopTen | main.py:184-186 | a top-ten report has min(10, number of rows) lines, each a stored ticker with its indicator value, strictly in ranking order, and every row it leaves out ranks below every line |
| Store.TopLines | main.py:186 | the report has min(10, rows) lines, each a stored ticker with its indicator value, in ranking order, and no row left out ranks above a reported one |
| Store.TopTenNonIncreasing | main.py:186 | a top-ten report has at most ten lines, its values never increase down the list, and no ticker appears twice |
| Store.KeysLike | main.py:146 | the keys a `ticker.like(pattern)` filter selects: the stored tickers that are `LIKE` the pattern; the same filter is used at main.py:163 and 171-172 |
| Store.KeysLikeOwnKey | main.py:146 | a filter on a stored ticker selects that ticker's row, and only that row when no other stored ticker is `LIKE` it |
| Store.DeleteLike | main.py:171-172 | deleting by pattern removes exactly the rows whose key is `LIKE` it, keeps every other row unchanged, and always removes the pattern's own key |
| Store.UpdateLike | main.py:163 | updating by pattern keeps the set of keys, leaves every row whose key is not `LIKE` it, and writes the field map onto every row whose key is |
| Store.Database.constructor | init_db.py:30 | a new database file has no tables, no rows and no pending inserts |
| Store.Database.Add | main.py:114-115 | adding an object appends it to the pending inserts |
| Store.Database.Commit | main.py:116 | the commit succeeds exactly when both tables accept the pending inserts, and then holds exactly the result; on failure the tables are unchanged; the session is left empty and every row stays under its key |
| Store.Database.InsertToDatabase | init_db.py:22-24 | adding a table's rows succeeds exactly when every row builds an object, and then appends one object per row, in row order, to the pending inserts |
| Store.Database.AddSeedRows | init_db.py:37-38 | the financial objects and then the company objects are pending exactly when both files are accepted |
| Store.Database.LoadSeedFiles | init_db.py:33-39 | the tables become the seeded tables exactly when seeding succeeds; otherwise they are unchanged; nothing stays pending |
| Store.Database.InitDatabase | init_db.py:27-42 | with exactly two tables present nothing changes and nothing is seeded; otherwise both tables exist afterwards and the store is the seeded store, or unchanged if seeding fails |
| Store.Database.ListAllCompanies | main.py:177-181 | every stored company once, in ascending ticker order, and nothing else |
| Store.Database.FindCompanyTickerByName | main.py:126-140 | the matches are exactly the stored companies whose name contains the fragment (up to `LIKE`), in ascending ticker order, and the choice is made among them by `Select` |
| Store.Database.ReadCompany | main.py:143-154 | nothing is shown without a chosen ticker; no row `LIKE` it is the missing-row error; several are the multiple-results error; exactly one shows its seven ratios with the chosen name |
| Store.Database.CreateCompany | main.py:109-116 | succeeds exactly when the ticker is in neither table; then adds exactly the company and a financial row holding each parsed answer, and changes nothing else; on failure nothing changes; pairing of the tables is preserved |
| Store.Database.UpdateCompany | main.py:157-165 | the companies table and the keys of `financial` are unchanged; with a chosen ticker, rows `LIKE` it get each parsed answer and keep every other column and their key, and all other rows are unchanged; without one nothing changes |
| Store.Database.DeleteCompany | main.py:168-174 | with a chosen ticker, exactly the rows `LIKE` it leave both tables, the chosen ticker among them, and every other row stays unchanged; without one nothing changes; pairing is preserved |
| Store.Database.GetTopTen | main.py:184-186 | an unknown indicator key is an error; a known one gives the top-ten report for that indicator |
| Nearest.Distance | new.py:2 | the distance is the non-negative difference of the number and the target |
| Nearest.DistancePairs | new.py:2 | every member appears with its distance, and every pair is a member with its distance |
| Nearest.PairAtMost | new.py:2-3 | Python's `<=` on `(distance, number)` tuples, which `sorted` uses: compare distances, then numbers |
| Nearest.FirstPairExists | new.py:3 | every non-empty set of pairs has one at or below all the others |
| Nearest.DistancePairsNonEmpty | new.py:2 | a non-empty set gives a non-empty list of pairs |
| Nearest.FirstPair | new.py:3 | the first sorted pair belongs to the set and is at or below every pair in it |
| Nearest.NearestValue | new.py:1-3 | the result is a member; no member is strictly closer to the target; among equally close members it is the smallest |
| Nearest.NearestValueIsUnique | new.py:1-3 | any member with those three properties is the result |
| Nearest.MemberIsItsOwnNearest | new.py:1-3 | a target that is itself a member is its own nearest value |
| Nearest.NearestToNine | new.py:7 | among 4, 7, 10, 11, 12 and 17 the value nearest 9 is 10 |

## Left out

- The console: menus, prompts, printing, `exit()` and the recursive return to the main menu (main.py:6-89, 189-197). Each operation takes the user's answers as parameters. The name fragment and the chosen index (`None` when `int(...)` raises `ValueError`) are passed this way. So is each numeric answer after `float(...)` (`None` when it raises).
- Company name and sector prompts in `create_company` are parameters, and are always stored as present text.
- The SQLAlchemy engine, session and SQL text: the tables are two maps keyed by ticker, and the session is a list of pending inserts.
- Floating point: every number is an exact real. Python's and SQLite's two-decimal roundings are modelled with their tie rules on exact reals. Binary representation error is not modelled.
- Reading the CSV files (`open`, `DictReader`): the rows arrive already read, as maps from header names to text. Python's `float()`, which the `Float` columns apply to the text when the session flushes, is a parameter (`toNumber`); `None` stands for the `ValueError` it raises, and a field it rejects makes the commit fail.
- Column widths `String(30)` and `String(100)` are not enforced, since SQLite does not enforce them either.
- Store.Database.FindCompanyTickerByName: the query has no `ORDER BY`, so the order of the matches belongs to the engine; the model fixes ascending ticker order.
- Store.TopLines: the order among rows with equal indicator values belongs to the engine; the model breaks ties by ascending ticker. NULL values rank last, as SQLite's descending order puts them.
- Store.Database.Commit: a primary-key conflict makes `session.commit()` raise `IntegrityError`, which nothing catches, so the program ends. The model returns `ok == false` with the tables unchanged; the state effect is the same, but the end of the program is not modelled.
- Store.Database.CreateCompany: a ticker already stored ends the program with the uncaught `IntegrityError` from the commit (main.py:116). The model returns `ok == false` and leaves both tables unchanged.
- Store.Database.LoadSeedFiles: a row with a header that is not a column makes `entity_class(**row)` raise `TypeError` (init_db.py:24), and a key conflict makes the commit raise `IntegrityError` (init_db.py:39). Neither is caught. The model returns `seeded == false` with the tables unchanged.
- Store.Database.LoadSeedFiles: a row without a ticker is accepted by the constructor in the code and fails only at the commit, where the key may not be NULL. The model rejects it when building the object. Either way nothing is stored.
- Store.Database.InitDatabase: the same failures of seeding end the program in the code; the model returns `seeded == false`.
- Store.Database.ReadCompany: an invalid choice of match ends the program with `TypeError` when the bare `None` is unpacked (main.py:144). The model uses the corrected unpacking, `Selection.Unpack`, and shows nothing.
- Store.Database.UpdateCompany: an invalid choice of match ends the program with `TypeError` (main.py:158). The model uses `Selection.Unpack` and leaves the store unchanged.
- Store.Database.DeleteCompany: an invalid choice of match ends the program with `TypeError` (main.py:169). The model uses `Selection.Unpack` and leaves the store unchanged.
- Seeding.FinancialOfRow: a field `float()` rejects is accepted by `Financial(**row)` and fails only when the commit flushes it (init_db.py:39), with a `StatementError` nothing catches, so the program ends. The model rejects the row when building the object and the seed reports `seeded == false`. Either way nothing is stored.
- Store.Database.ReadCompany: the `AttributeError` on a missing `financial` row and SQLAlchemy's `MultipleResultsFound` from `scalar()` are outcomes of the operation rather than exceptions.
- Store.Database.InitDatabase: the engine handle that `init_database` returns is not modelled. As in the program, `create_all` (init_db.py:33) is not undone by a failed seed, so the next start finds two empty tables and does not seed again.
- Store.Database.UpdateCompany: an update with an empty field map changes nothing; the model does not distinguish SQLAlchemy's no-op UPDATE from an UPDATE that sets nothing.
- `show_top_ten` and the module-level prints of `new.py` (new.py:6-7) are output only. The example at new.py:7 is kept as the lemma `Nearest.NearestToNine`.

## Findings

| source | as written | input that shows it | evidently intended | confidence | as-written member | corrected member |
|---|---|---|---|---|---|---|
| main.py:135-140, with callers at main.py:144, 158 and 169 | on an invalid index or a non-integer answer the lookup prints "Invalid input!" and returns a bare `None`, which the callers unpack into two names, raising `TypeError` and ending the program | one match and the answer `1` (or `x`) | an invalid choice selects nothing, like no match, and the menu continues | high, not executed | Selection.UnpackAsWritten, Selection.InvalidIndexStopsTheProgram | Selection.Unpack |

=== FILE: company_data.dfy ===
/**
 * `get_company_data` for the `financial` table: one prompt per numeric column,
 * in column order, and the field map built from the answers that parse as
 * numbers; plus how such a field map is written onto a row.
 */
module CompanyData {
  import opened Wrappers
  import opened Models

  /** The keyword map handed to the store: the key (absent for an update) and the parsed columns in order. */
  datatype FinancialData = FinancialData(ticker: Option<string>, fields: seq<(Column, real)>)

  /** `fields` holds exactly the columns whose answer parsed, each with its parsed value. */
  ghost predicate Captures(fields: seq<(Column, real)>, parsed: seq<Option<real>>)
    requires |parsed| == |FinancialColumns|
  {
    forall c: Column, v: real :: (c, v) in fields <==> parsed[ColumnIndex(c)] == Some(v)
  }

  /** The columns of `fields` appear in table order, each at most once. */
  ghost predicate InColumnOrder(fields: seq<(Column, real)>)
  {
    forall i, j :: 0 <= i < j < |fields| ==> ColumnIndex(fields[i].0) < ColumnIndex(fields[j].0)
  }

  /**
   * Invariant of the prompting loop, first part: every field comes from one of
   * the first `i` prompts, with the value its answer parsed to.
   */
  ghost predicate FromPrompts(fields: seq<(Column, real)>, parsed: seq<Option<real>>, i: int)
    requires |parsed| == |FinancialColumns|
  {
    forall k :: 0 <= k < |fields| ==>
      ColumnIndex(fields[k].0) < i && parsed[ColumnIndex(fields[k].0)] == Some(fields[k].1)
  }

  /** Second part: every one of the first `i` answers that parsed has its field. */
  ghost predicate AllParsedKept(fields: seq<(Column, real)>, parsed: seq<Option<real>>, i: int)
    requires |parsed| == |FinancialColumns| && 0 <= i <= |parsed|
  {
    forall j :: 0 <= j < i && parsed[j].Some? ==> (FinancialColumns[j], parsed[j].value) in fields
  }

  /** The field map after prompt `i`. */
  function AfterPrompt(fields: seq<(Column, real)>, parsed: seq<Option<real>>, i: int): seq<(Column, real)>
    requires |parsed| == |FinancialColumns| && 0 <= i < |parsed|
  {
    if parsed[i].Some? then fields + [(FinancialColumns[i], parsed[i].value)] else fields
  }

  lemma FromPromptsStep(fields: seq<(Column, real)>, parsed: seq<Option<real>>, i: int)
    requires |parsed| == |FinancialColumns| && 0 <= i < |parsed| && FromPrompts(fields, parsed, i)
    ensures FromPrompts(AfterPrompt(fields, parsed, i), parsed, i + 1)
  {
    var next := AfterPrompt(fields, parsed, i);
    assert forall k :: 0 <= k < |fields| ==> next[k] == fields[k];
    if parsed[i].Some? {
      IndexOfColumn(i);
      assert next[|fields|] == (FinancialColumns[i], parsed[i].value);
    }
  }

  lemma AllParsedKeptStep(fields: seq<(Column, real)>, parsed: seq<Option<real>>, i: int)
    requires |parsed| == |FinancialColumns| && 0 <= i < |parsed| && AllParsedKept(fields, parsed, i)
    ensures AllParsedKept(AfterPrompt(fields, parsed, i), parsed, i + 1)
  {
    var next := AfterPrompt(fields, parsed, i);
    assert forall x :: x in fields ==> x in next;
    if parsed[i].Some? {
      assert next[|fields|] == (FinancialColumns[i], parsed[i].value);
    }
  }

  lemma InColumnOrderStep(fields: seq<(Column, real)>, parsed: seq<Option<real>>, i: int)
    requires |parsed| == |FinancialColumns| && 0 <= i < |parsed|
    requires FromPrompts(fields, parsed, i) && InColumnOrder(fields)
    ensures InColumnOrder(AfterPrompt(fields, parsed, i))
  {
    if parsed[i].Some? {
      var next := AfterPrompt(fields, parsed, i);
      IndexOfColumn(i);
      assert forall k :: 0 <= k < |fields| ==> next[k] == fields[k];
      assert next[|fields|] == (FinancialColumns[i], parsed[i].value);
    }
  }

  /**
   * `parsed[i]` is the answer to the prompt for the i-th numeric column after
   * `float(...)`: `None` when it raised `ValueError`. A failed column is written
   * into the discarded company map instead of the field map, so it is simply
   * missing from the result.
   */
  method GetFinancialData(ticker: string, parsed: seq<Option<real>>, update: bool)
    returns (data: FinancialData)
    requires |parsed| == |FinancialColumns|
    ensures data.ticker == if update then None else Some(ticker)
    ensures Captures(data.fields, parsed)
    ensures InColumnOrder(data.fields)
  {
    var companyData: map<string, Option<string>> := map["ticker" := Some(ticker)];
    var fields: seq<(Column, real)> := [];
    for i := 0 to |FinancialColumns|
      invariant FromPrompts(fields, parsed, i) && AllParsedKept(fields, parsed, i) && InColumnOrder(fields)
    {
      FromPromptsStep(fields, parsed, i);
      AllParsedKeptStep(fields, parsed, i);
      InColumnOrderStep(fields, parsed, i);
      var column := FinancialColumns[i];
      match parsed[i]
      case Some(v) =>
        fields := fields + [(column, v)];
      case None =>
        companyData := companyData[ColumnName(column) := None];
    }
    forall c: Column, v: real | parsed[ColumnIndex(c)] == Some(v)
      ensures (c, v) in fields
    {
      assert FinancialColumns[ColumnIndex(c)] == c;
    }
    data := FinancialData(if update then None else Some(ticker), fields);
  }

  /** The value a field map assigns to a column, if any; the last assignment wins. */
  function Assigned(fields: seq<(Column, real)>, c: Column): Option<real>
  {
    if fields == [] then None
    else
      var later := Assigned(fields[1..], c);
      if later.Some? then later
      else if fields[0].0 == c then Some(fields[0].1)
      else None
  }

  lemma {:induction false} AssignedComesFromFields(fields: seq<(Column, real)>, c: Column)
    ensures Assigned(fields, c).Some? ==> (c, Assigned(fields, c).value) in fields
    ensures Assigned(fields, c).None? ==> forall v: real :: (c, v) !in fields
  {
    if fields != [] {
      AssignedComesFromFields(fields[1..], c);
      assert forall p :: p in fields ==> p == fields[0] || p in fields[1..];
    }
  }

  /** For a field map built from the prompts, a column is assigned exactly what its answer parsed to. */
  lemma CapturedIsAssigned(fields: seq<(Column, real)>, parsed: seq<Option<real>>, c: Column)
    requires |parsed| == |FinancialColumns| && Captures(fields, parsed)
    ensures Assigned(fields, c) == parsed[ColumnIndex(c)]
  {
    AssignedComesFromFields(fields, c);
    match parsed[ColumnIndex(c)]
    case Some(v) =>
      assert (c, v) in fields;
      var w := Assigned(fields, c).value;
      assert (c, w) in fields;
    case None =>
      if Assigned(fields, c).Some? {
        var w := Assigned(fields, c).value;
        assert (c, w) in fields;
      }
  }

  /** Writes a field map onto a row, column by column, as an UPDATE's SET list does. */
  function ApplyFields(f: Financial, fields: seq<(Column, real)>): Financial
    decreases |fields|
  {
    if fields == [] then f
    else ApplyFields(f.Set(fields[0].0, Some(fields[0].1)), fields[1..])
  }

  /** Writing a field map changes exactly the columns it names, and never the key. */
  lemma {:induction false} ApplyFieldsGet(f: Financial, fields: seq<(Column, real)>, c: Column)
    ensures ApplyFields(f, fields).ticker == f.ticker
    ensures ApplyFields(f, fields).Get(c) == if Assigned(fields, c).Some? then Assigned(fields, c) else f.Get(c)
    decreases |fields|
  {
    if fields != [] {
      ApplyFieldsGet(f.Set(fields[0].0, Some(fields[0].1)), fields[1..], c);
    }
  }

  /** The `financial` row `Financial(**data)` builds: columns missing from the map are NULL. */
  function NewFinancial(ticker: string, fields: seq<(Column, real)>): Financial
  {
    ApplyFields(BlankFinancial(ticker), fields)
  }

  /** A row built from the prompts holds, in each column, exactly what that column's answer parsed to. */
  lemma NewFinancialHoldsParsed(ticker: string, fields: seq<(Column, real)>, parsed: seq<Option<real>>)
    requires |parsed| == |FinancialColumns| && Captures(fields, parsed)
    ensures NewFinancial(ticker, fields).ticker == ticker
    ensures forall c :: NewFinancial(ticker, fields).Get(c) == parsed[ColumnIndex(c)]
  {
    forall c: Column ensures NewFinancial(ticker, fields).Get(c) == parsed[ColumnIndex(c)] {
      ApplyFieldsGet(BlankFinancial(ticker), fields, c);
      CapturedIsAssigned(fields, parsed, c);
    }
    ApplyFieldsGet(BlankFinancial(ticker), fields, Ebitda);
  }

  /**
   * Updating a row with the prompts' field map sets each column whose answer
   * parsed and leaves every other column, and the key, as they were.
   */
  lemma UpdateKeepsUnparsed(f: Financial, fields: seq<(Column, real)>, parsed: seq<Option<real>>)
    requires |parsed| == |FinancialColumns| && Captures(fields, parsed)
    ensures ApplyFields(f, fields).ticker == f.ticker
    ensures forall c :: (ApplyFields(f, fields).Get(c) ==
                         if parsed[ColumnIndex(c)].Some? then parsed[ColumnIndex(c)] else f.Get(c))
  {
    forall c: Column ensures ApplyFields(f, fields).Get(c) ==
      (if parsed[ColumnIndex(c)].Some? then parsed[ColumnIndex(c)] else f.Get(c))
    {
      ApplyFieldsGet(f, fields, c);
      CapturedIsAssigned(fields, parsed, c);
    }
    ApplyFieldsGet(f, fields, Ebitda);
  }
}

=== FILE: like.dfy ===
/**
 * SQLite's `LIKE` operator with its default settings, which every lookup of the
 * store goes through: `%` matches any run of characters, `_` any single
 * character, there is no escape character, and letters compare without regard
 * to case for ASCII only.
 */
module SqlLike {

  /** The case folding `LIKE` applies: ASCII upper-case letters become lower-case, nothing else changes. */
  function Fold(ch: char): (r: char)
    ensures 'A' <= ch <= 'Z' ==> r as int == ch as int + 32
    ensures !('A' <= ch <= 'Z') ==> r == ch
  {
    if 'A' <= ch <= 'Z' then (ch as int + 32) as char else ch
  }

  /** `s LIKE pattern`. */
  predicate Like(s: string, pattern: string)
    decreases |s| + |pattern|
  {
    if pattern == [] then s == []
    else if pattern[0] == '%' then Like(s, pattern[1..]) || (s != [] && Like(s[1..], pattern))
    else s != [] && (pattern[0] == '_' || Fold(pattern[0]) == Fold(s[0])) && Like(s[1..], pattern[1..])
  }

  /** A pattern without `%` or `_`. */
  predicate NoWildcards(f: string)
  {
    forall i :: 0 <= i < |f| ==> f[i] != '%' && f[i] != '_'
  }

  /** `s` begins with `f`, up to case. */
  predicate FoldedPrefix(s: string, f: string)
  {
    |f| <= |s| && forall i :: 0 <= i < |f| ==> Fold(s[i]) == Fold(f[i])
  }

  /** A copy of `f`, up to case, starts at position `k` of `s`. */
  predicate FoldedAt(s: string, f: string, k: int)
  {
    0 <= k <= |s| && FoldedPrefix(s[k..], f)
  }

  /** The suffix of `s` from position `k` matches `pattern`. */
  predicate SuffixLike(s: string, pattern: string, k: int)
  {
    0 <= k <= |s| && Like(s[k..], pattern)
  }

  /** Every string is `LIKE` itself, whatever wildcards it holds. */
  lemma {:induction false} LikeSelf(s: string)
    ensures Like(s, s)
    decreases |s|
  {
    if s != [] {
      LikeSelf(s[1..]);
      if s[0] == '%' {
        assert Like(s[1..], s[1..]);
        assert Like(s[1..], s);
      }
    }
  }

  /** `%` on its own matches every string. */
  lemma {:induction false} LikeAnything(s: string)
    ensures Like(s, "%")
    decreases |s|
  {
    assert "%"[1..] == [];
    if s != [] {
      LikeAnything(s[1..]);
    }
  }

  /** A leading `%` matches exactly when some suffix matches the rest of the pattern. */
  lemma {:induction false} LeadingPercent(s: string, rest: string)
    ensures Like(s, "%" + rest) <==> exists k :: SuffixLike(s, rest, k)
    decreases |s|
  {
    var p := "%" + rest;
    assert p[0] == '%' && p[1..] == rest;
    assert s[0..] == s;
    assert Like(s, rest) <==> SuffixLike(s, rest, 0);
    if s != [] {
      LeadingPercent(s[1..], rest);
      forall k | 0 <= k <= |s[1..]| ensures SuffixLike(s[1..], rest, k) <==> SuffixLike(s, rest, k + 1) {
        assert s[1..][k..] == s[k + 1..];
      }
      if Like(s, p) && !Like(s, rest) {
        var k :| SuffixLike(s[1..], rest, k);
        assert SuffixLike(s, rest, k + 1);
      }
      if k :| SuffixLike(s, rest, k) && k > 0 {
        assert SuffixLike(s[1..], rest, k - 1);
      }
    } else {
      if k :| SuffixLike(s, rest, k) {
        assert k == 0;
      }
    }
  }

  /** Without wildcards, `f%` matches exactly the strings that begin with `f`, up to case. */
  lemma {:induction false} TrailingPercent(s: string, f: string)
    requires NoWildcards(f)
    ensures Like(s, f + "%") <==> FoldedPrefix(s, f)
    decreases |f|
  {
    if f == [] {
      assert f + "%" == "%";
      LikeAnything(s);
    } else {
      var p := f + "%";
      assert p[0] == f[0] && p[1..] == f[1..] + "%";
      assert NoWildcards(f[1..]) by {
        forall i | 0 <= i < |f[1..]| ensures f[1..][i] != '%' && f[1..][i] != '_' {
          assert f[1..][i] == f[i + 1];
        }
      }
      assert f[0] != '%' && f[0] != '_' by {
        assert NoWildcards(f);
      }
      if s != [] {
        TrailingPercent(s[1..], f[1..]);
        assert FoldedPrefix(s, f) <==> Fold(s[0]) == Fold(f[0]) && FoldedPrefix(s[1..], f[1..]) by {
          if Fold(s[0]) == Fold(f[0]) && FoldedPrefix(s[1..], f[1..]) {
            forall i | 0 <= i < |f| ensures Fold(s[i]) == Fold(f[i]) {
              if i > 0 {
                assert s[1..][i - 1] == s[i] && f[1..][i - 1] == f[i];
              }
            }
          }
          if FoldedPrefix(s, f) {
            forall i | 0 <= i < |f[1..]| ensures Fold(s[1..][i]) == Fold(f[1..][i]) {
              assert s[1..][i] == s[i + 1] && f[1..][i] == f[i + 1];
            }
          }
        }
      }
    }
  }

  /**
   * The name lookup's pattern `%f%`: for a fragment without wildcards, a string
   * matches exactly when it contains the fragment somewhere, up to ASCII case.
   */
  lemma ContainsLike(s: string, f: string)
    requires NoWildcards(f)
    ensures Like(s, "%" + f + "%") <==> exists k :: FoldedAt(s, f, k)
  {
    assert "%" + f + "%" == "%" + (f + "%");
    LeadingPercent(s, f + "%");
    forall k | 0 <= k <= |s| ensures SuffixLike(s, f + "%", k) <==> FoldedAt(s, f, k) {
      TrailingPercent(s[k..], f);
    }
  }

  /** Without wildcards, `LIKE` is equality up to ASCII case. */
  lemma {:induction false} LikeExact(s: string, f: string)
    requires NoWildcards(f)
    ensures Like(s, f) <==> |s| == |f| && FoldedPrefix(s, f)
    decreases |f|
  {
    if f != [] {
      assert f[0] != '%' && f[0] != '_' by {
        assert NoWildcards(f);
      }
      assert NoWildcards(f[1..]) by {
        forall i | 0 <= i < |f[1..]| ensures f[1..][i] != '%' && f[1..][i] != '_' {
          assert f[1..][i] == f[i + 1];
        }
      }
      if s != [] {
        LikeExact(s[1..], f[1..]);
        if Like(s, f) {
          forall i | 0 <= i < |f| ensures Fold(s[i]) == Fold(f[i]) {
            if i > 0 {
              assert s[1..][i - 1] == s[i] && f[1..][i - 1] == f[i];
            }
          }
        }
        if |s| == |f| && FoldedPrefix(s, f) {
          forall i | 0 <= i < |f[1..]| ensures Fold(s[1..][i]) == Fold(f[1..][i]) {
            assert s[1..][i] == s[i + 1] && f[1..][i] == f[i + 1];
          }
        }
      }
    }
  }

  /** `LIKE` ignores ASCII case: "Moon Corp" matches `%moon%`. */
  lemma NameCaseIsIgnored()
    ensures Like("Moon Corp", "%moon%")
  {
    var name, fragment := "Moon Corp", "moon";
    assert NoWildcards(fragment);
    assert "%" + fragment + "%" == "%moon%";
    assert name[0..] == name;
    assert Fold(name[0]) == Fold(fragment[0]) && name[1..4] == fragment[1..];
    assert FoldedAt(name, fragment, 0);
    ContainsLike(name, fragment);
  }

  /** `LIKE` ignores ASCII case: "MOON" matches `moon`. */
  lemma TickerCaseIsIgnored()
    ensures Like("MOON", "moon")
  {
    assert NoWildcards("moon");
    LikeExact("MOON", "moon");
    assert Fold('M') == 'm' && Fold('O') == 'o' && Fold('N') == 'n';
  }
}

=== FILE: models.dfy ===
/**
 * The schema of the investor store: the `companies` and `financial` tables and
 * the three ranking indicators evaluated by the storage engine.
 */
module Models {
  import opened Wrappers
  import opened Numbers

  /** A row of `companies`; `ticker` is the primary key, the other columns are nullable text. */
  datatype Company = Company(ticker: string, name: Option<string>, sector: Option<string>)

  /** Column names of `companies`, in declaration order. */
  const CompanyColumnNames: seq<string> := ["ticker", "name", "sector"]

  /** The nine numeric columns of `financial`, after its `ticker` key. */
  datatype Column =
    | Ebitda | Sales | NetProfit | MarketPrice | NetDebt
    | Assets | Equity | CashEquivalents | Liabilities

  /** The numeric columns in declaration order. */
  const FinancialColumns: seq<Column> :=
    [Ebitda, Sales, NetProfit, MarketPrice, NetDebt, Assets, Equity, CashEquivalents, Liabilities]

  /** Column names of `financial`, in declaration order, key first. */
  const FinancialColumnNames: seq<string> :=
    ["ticker", "ebitda", "sales", "net_profit", "market_price", "net_debt",
     "assets", "equity", "cash_equivalents", "liabilities"]

  /** Position of a numeric column among the nine. */
  function ColumnIndex(c: Column): (i: nat)
    ensures i < |FinancialColumns| && FinancialColumns[i] == c
  {
    match c
    case Ebitda => 0
    case Sales => 1
    case NetProfit => 2
    case MarketPrice => 3
    case NetDebt => 4
    case Assets => 5
    case Equity => 6
    case CashEquivalents => 7
    case Liabilities => 8
  }

  /** The name a numeric column has in the table. */
  function ColumnName(c: Column): (s: string)
    ensures s == FinancialColumnNames[ColumnIndex(c) + 1] && s != "ticker"
  {
    match c
    case Ebitda => "ebitda"
    case Sales => "sales"
    case NetProfit => "net_profit"
    case MarketPrice => "market_price"
    case NetDebt => "net_debt"
    case Assets => "assets"
    case Equity => "equity"
    case CashEquivalents => "cash_equivalents"
    case Liabilities => "liabilities"
  }

  /** The i-th numeric column sits at position i. */
  lemma IndexOfColumn(i: int)
    requires 0 <= i < |FinancialColumns|
    ensures ColumnIndex(FinancialColumns[i]) == i
  {
    if i == 0 {
    } else if i == 1 {
    } else if i == 2 {
    } else if i == 3 {
    } else if i == 4 {
    } else if i == 5 {
    } else if i == 6 {
    } else if i == 7 {
    } else {
      assert i == 8;
    }
  }

  /** Every numeric column occurs exactly once in the column order, and names are distinct. */
  lemma ColumnsAreExactlyTheNine(c: Column, d: Column)
    ensures |FinancialColumns| == 9 && c in FinancialColumns
    ensures forall i, j :: 0 <= i < j < |FinancialColumns| ==> FinancialColumns[i] != FinancialColumns[j]
    ensures ColumnName(c) == ColumnName(d) ==> c == d
  {
  }

  /** A row of `financial`; `ticker` is the primary key, every other column is nullable. */
  datatype Financial = Financial(
    ticker: string,
    ebitda: Option<real>,
    sales: Option<real>,
    net_profit: Option<real>,
    market_price: Option<real>,
    net_debt: Option<real>,
    assets: Option<real>,
    equity: Option<real>,
    cash_equivalents: Option<real>,
    liabilities: Option<real>)
  {
    /** The value of one numeric column. */
    function Get(c: Column): Option<real>
    {
      match c
      case Ebitda => ebitda
      case Sales => sales
      case NetProfit => net_profit
      case MarketPrice => market_price
      case NetDebt => net_debt
      case Assets => assets
      case Equity => equity
      case CashEquivalents => cash_equivalents
      case Liabilities => liabilities
    }

    /** The row with one numeric column replaced. */
    function Set(c: Column, v: Option<real>): (r: Financial)
      ensures r.ticker == ticker && r.Get(c) == v
      ensures forall d :: d != c ==> r.Get(d) == Get(d)
    {
      match c
      case Ebitda => this.(ebitda := v)
      case Sales => this.(sales := v)
      case NetProfit => this.(net_profit := v)
      case MarketPrice => this.(market_price := v)
      case NetDebt => this.(net_debt := v)
      case Assets => this.(assets := v)
      case Equity => this.(equity := v)
      case CashEquivalents => this.(cash_equivalents := v)
      case Liabilities => this.(liabilities := v)
    }
  }

  /** A `financial` row built from its key alone: every numeric column is NULL. */
  function BlankFinancial(ticker: string): (f: Financial)
    ensures f.ticker == ticker && forall c :: f.Get(c) == None
  {
    Financial(ticker, None, None, None, None, None, None, None, None, None)
  }

  /** Two rows with the same key and the same value in every column are the same row. */
  lemma FinancialExtensionality(f: Financial, g: Financial)
    requires f.ticker == g.ticker && forall c :: f.Get(c) == g.Get(c)
    ensures f == g
  {
    assert f.Get(Ebitda) == g.Get(Ebitda) && f.Get(Sales) == g.Get(Sales);
    assert f.Get(NetProfit) == g.Get(NetProfit) && f.Get(MarketPrice) == g.Get(MarketPrice);
    assert f.Get(NetDebt) == g.Get(NetDebt) && f.Get(Assets) == g.Get(Assets);
    assert f.Get(Equity) == g.Get(Equity) && f.Get(CashEquivalents) == g.Get(CashEquivalents);
    assert f.Get(Liabilities) == g.Get(Liabilities);
  }

  /** The ranking indicators: each is a rounded quotient of two fixed columns. */
  datatype Indicator = NdEbitda | Roe | Roa
  {
    function Numerator(): Column
    {
      match this
      case NdEbitda => NetDebt
      case Roe => NetProfit
      case Roa => NetProfit
    }

    function Denominator(): Column
    {
      match this
      case NdEbitda => Ebitda
      case Roe => Equity
      case Roa => Assets
    }

    /** The key under which the indicator is offered. */
    function Key(): (k: string)
      ensures k in Indicators && Indicators[k] == this
    {
      match this
      case NdEbitda => "ND/EBITDA"
      case Roe => "ROE"
      case Roa => "ROA"
    }
  }

  /** The indicators offered for ranking, by key. */
  const Indicators: map<string, Indicator> :=
    map["ND/EBITDA" := NdEbitda, "ROE" := Roe, "ROA" := Roa]

  /** The three keys are the only ones, and each names the indicator whose key it is. */
  lemma IndicatorKeys(k: string)
    ensures Indicators.Keys == {"ND/EBITDA", "ROE", "ROA"}
    ensures k in Indicators ==> Indicators[k].Key() == k
  {
  }

  /**
   * `round(numerator / denominator, 2)` as the storage engine evaluates it: NULL
   * when an operand is NULL or the divisor is zero, otherwise SQLite's rounding.
   */
  function IndicatorValue(ind: Indicator, f: Financial): (r: Ratio)
    ensures r == Undefined <==>
      f.Get(ind.Numerator()) == None || f.Get(ind.Denominator()) == None ||
      f.Get(ind.Denominator()).value == 0.0
    ensures r.Numeric? ==>
      Abs(r.value - f.Get(ind.Numerator()).value / f.Get(ind.Denominator()).value) <= 0.005
  {
    match (f.Get(ind.Numerator()), f.Get(ind.Denominator()))
    case (Some(n), Some(d)) => if d == 0.0 then Undefined else Numeric(SqlRound2(n / d))
    case _ => Undefined
  }
}

=== FILE: nearest.dfy ===
/**
 * `nearest_value`: the member of a set of integers closest to a target. The
 * source pairs every member with its distance to the target, sorts the pairs
 * and takes the number of the first one; since tuples compare by distance and
 * then by number, equal distances go to the smaller number.
 */
module Nearest {

  /** `abs(number - one)`. */
  function Distance(number: int, one: int): (d: nat)
    ensures d == number - one || d == one - number
  {
    if number >= one then number - one else one - number
  }

  /** Python's ordering of `(distance, number)` tuples: `a <= b`. */
  predicate PairAtMost(a: (int, int), b: (int, int))
  {
    a.0 < b.0 || (a.0 == b.0 && a.1 <= b.1)
  }

  /** The list comprehension, as a set: one `(distance, number)` pair per member. */
  function DistancePairs(values: set<int>, one: int): (ps: set<(int, int)>)
    ensures forall v :: v in values ==> (Distance(v, one), v) in ps
    ensures forall p :: p in ps ==> p.1 in values && p.0 == Distance(p.1, one)
  {
    set v | v in values :: (Distance(v, one), v)
  }

  /** Every non-empty finite set of pairs has a first element in sorted order. */
  lemma {:induction false} FirstPairExists(ps: set<(int, int)>)
    requires ps != {}
    ensures exists p :: p in ps && forall q :: q in ps ==> PairAtMost(p, q)
    decreases |ps|
  {
    var x :| x in ps;
    if ps != {x} {
      var rest := ps - {x};
      FirstPairExists(rest);
      var m :| m in rest && forall q :: q in rest ==> PairAtMost(m, q);
      if PairAtMost(m, x) {
        assert forall q :: q in ps ==> PairAtMost(m, q);
      } else {
        forall q | q in ps ensures PairAtMost(x, q) {
          if q != x {
            assert PairAtMost(m, q);
          }
        }
      }
    } else {
      assert forall q :: q in ps ==> q == x;
    }
  }

  /** A non-empty set gives a non-empty list of pairs. */
  lemma DistancePairsNonEmpty(values: set<int>, one: int)
    requires values != {}
    ensures DistancePairs(values, one) != {}
  {
    if DistancePairs(values, one) == {} {
      assert forall v :: v !in values;
    }
  }

  /** `sorted(ps)[0]`: the pair at or below every other one. */
  function FirstPair(ps: set<(int, int)>): (p: (int, int))
    requires ps != {}
    ensures p in ps && forall q :: q in ps ==> PairAtMost(p, q)
  {
    FirstPairExists(ps);
    var p :| p in ps && forall q :: q in ps ==> PairAtMost(p, q);
    p
  }

  /**
   * `nearest_value`: a member of `values` with no member strictly closer to
   * `one`, and the smallest such member on a tie. An empty set has no first
   * pair (the source raises `IndexError`), so `values` must not be empty.
   */
  function NearestValue(values: set<int>, one: int): (r: int)
    requires values != {}
    ensures r in values
    ensures forall v :: v in values ==> Distance(r, one) <= Distance(v, one)
    ensures forall v :: v in values && Distance(v, one) == Distance(r, one) ==> r <= v
  {
    var ps := DistancePairs(values, one);
    DistancePairsNonEmpty(values, one);
    assert (Distance(FirstPair(ps).1, one), FirstPair(ps).1) == FirstPair(ps);
    FirstPair(ps).1
  }

  /** The three properties above pin the answer down: any member that has them is the nearest value. */
  lemma NearestValueIsUnique(values: set<int>, one: int, r: int)
    requires r in values
    requires forall v :: v in values ==> Distance(r, one) <= Distance(v, one)
    requires forall v :: v in values && Distance(v, one) == Distance(r, one) ==> r <= v
    ensures NearestValue(values, one) == r
  {
    var n := NearestValue(values, one);
    assert Distance(n, one) <= Distance(r, one) && Distance(r, one) <= Distance(n, one);
    assert n <= r && r <= n;
  }

  /** A target that is itself a member is its own nearest value. */
  lemma MemberIsItsOwnNearest(values: set<int>, one: int)
    requires one in values
    ensures NearestValue(values, one) == one
  {
    var n := NearestValue(values, one);
    assert Distance(n, one) <= Distance(one, one) == 0;
  }

  /** The example in the source: among 4, 7, 10, 11, 12 and 17, the one nearest 9 is 10. */
  lemma NearestToNine()
    ensures NearestValue({4, 7, 10, 11, 12, 17}, 9) == 10
  {
    NearestValueIsUnique({4, 7, 10, 11, 12, 17}, 9, 10);
  }
}

=== FILE: numbers.dfy ===
/**
 * Numeric values shared by the ratio computations: the two-valued ratio result
 * and the two rounding rules in play (Python's `round(x, 2)` and SQLite's
 * `round(x, 2)`). Floating point is modelled by exact reals.
 */
module Numbers {

  /** A derived ratio: a number, or the sentinel 'None' (SQL NULL in the store). */
  datatype Ratio = Undefined | Numeric(value: real)

  function Abs(x: real): real { if x < 0.0 then -x else x }

  /** Nearest integer, ties to the even neighbour (Python's rounding rule). */
  function HalfEven(x: real): (n: int)
    ensures Abs(n as real - x) <= 0.5
    ensures Abs(n as real - x) == 0.5 ==> n % 2 == 0
  {
    var f := x.Floor;
    var d := x - f as real;
    if d < 0.5 then f
    else if d > 0.5 then f + 1
    else if f % 2 == 0 then f
    else f + 1
  }

  /** Nearest integer, ties away from zero (SQLite's rounding rule). */
  function HalfAway(x: real): (n: int)
    ensures Abs(n as real - x) <= 0.5
    ensures Abs(n as real - x) == 0.5 ==> Abs(n as real) > Abs(x)
  {
    if x >= 0.0 then (x + 0.5).Floor else -((0.5 - x).Floor)
  }

  /** Python's `round(x, 2)`. */
  function PyRound2(x: real): (r: real)
    ensures Abs(r - x) <= 0.005
  {
    HalfEven(x * 100.0) as real / 100.0
  }

  /** SQLite's `round(x, 2)`. */
  function SqlRound2(x: real): (r: real)
    ensures Abs(r - x) <= 0.005
  {
    HalfAway(x * 100.0) as real / 100.0
  }

  /** A whole number is left as it is by both integer roundings. */
  lemma IntegerUnrounded(n: int)
    ensures HalfEven(n as real) == n && HalfAway(n as real) == n
  {
    assert (n as real).Floor == n;
    if n < 0 {
      assert (0.5 - n as real).Floor == -n;
    } else {
      assert (n as real + 0.5).Floor == n;
    }
  }

  /** A value with at most two decimals is left as it is by both roundings. */
  lemma RoundingKeepsCents(n: int)
    ensures PyRound2(n as real / 100.0) == n as real / 100.0
    ensures SqlRound2(n as real / 100.0) == n as real / 100.0
  {
    var x := n as real / 100.0;
    assert x * 100.0 == n as real;
    IntegerUnrounded(n);
  }
}

=== FILE: order.dfy ===
/**
 * The order in which the store sorts text keys: SQLite's default BINARY
 * collation, which compares code point by code point and puts a proper prefix
 * first.
 */
module Order {

  /** `a` sorts strictly before `b`. */
  predicate Below(a: string, b: string)
  {
    |b| > 0 && (|a| == 0 || a[0] < b[0] || (a[0] == b[0] && Below(a[1..], b[1..])))
  }

  lemma {:induction false} BelowIrreflexive(a: string)
    ensures !Below(a, a)
  {
    if |a| > 0 {
      BelowIrreflexive(a[1..]);
    }
  }

  lemma {:induction false} BelowTransitive(a: string, b: string, c: string)
    requires Below(a, b) && Below(b, c)
    ensures Below(a, c)
  {
    if |a| > 0 && a[0] == b[0] && b[0] == c[0] {
      BelowTransitive(a[1..], b[1..], c[1..]);
    }
  }

  /** Any two different strings are ordered one way or the other. */
  lemma {:induction false} BelowTotal(a: string, b: string)
    requires a != b
    ensures Below(a, b) || Below(b, a)
  {
    if |a| > 0 && |b| > 0 && a[0] == b[0] {
      assert a == [a[0]] + a[1..] && b == [b[0]] + b[1..];
      BelowTotal(a[1..], b[1..]);
    }
  }

  lemma BelowAsymmetric(a: string, b: string)
    requires Below(a, b)
    ensures !Below(b, a)
  {
    if Below(b, a) {
      BelowTransitive(a, b, a);
      BelowIrreflexive(a);
    }
  }
}

=== FILE: ratios.dfy ===
/**
 * The ratio engine behind "read a company": safe division with the sentinel
 * 'None', and the seven ratios reported for one `financial` row.
 */
module Ratios {
  import opened Wrappers
  import opened Numbers
  import opened Models

  /**
   * `none_corrected_divide`: the sentinel when either operand is missing or the
   * divisor is zero, otherwise the quotient rounded to two decimals.
   */
  function SafeDivide(divisible: Option<real>, divisor: Option<real>): (r: Ratio)
    ensures r == Undefined <==> divisible == None || divisor == None || divisor.value == 0.0
    ensures r.Numeric? ==> r.value == PyRound2(divisible.value / divisor.value)
    ensures r.Numeric? ==> Abs(r.value - divisible.value / divisor.value) <= 0.005
  {
    if divisible.None? || divisor.None? || divisor.value == 0.0 then Undefined
    else Numeric(PyRound2(divisible.value / divisor.value))
  }

  /** The labelled ratios of the report, as (label, numerator, denominator), in display order. */
  const ReportPairs: seq<(string, Column, Column)> := [
    ("P/E", MarketPrice, NetProfit),
    ("P/S", MarketPrice, Sales),
    ("P/B", MarketPrice, Assets),
    ("ND/EBITDA", NetDebt, Ebitda),
    ("ROE", NetProfit, Equity),
    ("ROA", NetProfit, Assets),
    ("L/A", Liabilities, Assets)
  ]

  /** The seven lines `read_company` reports for one row. */
  function Report(f: Financial): (r: seq<(string, Ratio)>)
    ensures |r| == |ReportPairs| == 7
  {
    [("P/E", SafeDivide(f.market_price, f.net_profit)),
     ("P/S", SafeDivide(f.market_price, f.sales)),
     ("P/B", SafeDivide(f.market_price, f.assets)),
     ("ND/EBITDA", SafeDivide(f.net_debt, f.ebitda)),
     ("ROE", SafeDivide(f.net_profit, f.equity)),
     ("ROA", SafeDivide(f.net_profit, f.assets)),
     ("L/A", SafeDivide(f.liabilities, f.assets))]
  }

  /** Line `i` of the report is the labelled ratio of the i-th pair of columns. */
  lemma ReportFollowsPairs(f: Financial, i: int)
    requires 0 <= i < |ReportPairs|
    ensures Report(f)[i] == (ReportPairs[i].0, SafeDivide(f.Get(ReportPairs[i].1), f.Get(ReportPairs[i].2)))
  {
    if i == 0 {
    } else if i == 1 {
    } else if i == 2 {
    } else if i == 3 {
    } else if i == 4 {
    } else if i == 5 {
    } else {
      assert i == 6;
    }
  }

  /** Where a ranking indicator appears in the report. */
  function ReportLine(ind: Indicator): (i: nat)
    ensures i < |ReportPairs|
    ensures ReportPairs[i] == (ind.Key(), ind.Numerator(), ind.Denominator())
  {
    match ind
    case NdEbitda => 3
    case Roe => 4
    case Roa => 5
  }

  /**
   * A ranking indicator and the report line of the same name divide the same
   * pair of columns: both are undefined together, and otherwise differ only by
   * the two rounding rules, so by at most one cent.
   */
  lemma IndicatorAgreesWithReport(ind: Indicator, f: Financial)
    ensures Report(f)[ReportLine(ind)].0 == ind.Key()
    ensures Report(f)[ReportLine(ind)].1.Undefined? <==> IndicatorValue(ind, f).Undefined?
    ensures IndicatorValue(ind, f).Numeric? ==>
      Abs(Report(f)[ReportLine(ind)].1.value - IndicatorValue(ind, f).value) <= 0.01
  {
    ReportFollowsPairs(f, ReportLine(ind));
  }

  /** A quotient with at most two decimals is reported exactly. */
  lemma SafeDivideExact(divisible: real, divisor: real, cents: int)
    requires divisor != 0.0 && divisible / divisor == cents as real / 100.0
    ensures SafeDivide(Some(divisible), Some(divisor)) == Numeric(cents as real / 100.0)
  {
    RoundingKeepsCents(cents);
  }

  /** A row with net profit 100, equity 50 and assets 200 reports ROE 2.0 and ROA 0.5. */
  lemma MoonScenario(f: Financial)
    requires f.net_profit == Some(100.0) && f.equity == Some(50.0) && f.assets == Some(200.0)
    ensures Report(f)[4] == ("ROE", Numeric(2.0))
    ensures Report(f)[5] == ("ROA", Numeric(0.5))
  {
    SafeDivideExact(100.0, 50.0, 200);
    SafeDivideExact(100.0, 200.0, 50);
  }

  /** Net debt present but EBITDA absent reports ND/EBITDA as the sentinel. */
  lemma MissingEbitdaScenario(f: Financial)
    requires f.net_debt == Some(10.0) && f.ebitda == None
    ensures Report(f)[3] == ("ND/EBITDA", Undefined)
  {
  }

  /** Setting equity to 25 on the row above makes its ROE 4.0 and leaves every other column. */
  lemma EquityUpdateScenario(f: Financial)
    requires f.net_profit == Some(100.0) && f.equity == Some(50.0) && f.assets == Some(200.0)
    ensures Report(f.Set(Equity, Some(25.0)))[4] == ("ROE", Numeric(4.0))
    ensures Report(f.Set(Equity, Some(25.0)))[5] == Report(f)[5]
  {
    SafeDivideExact(100.0, 25.0, 400);
  }
}

=== FILE: seeding.dfy ===
/**
 * Rows read from the two seed files: the normalisation `get_data_from_csv`
 * applies after reading (every empty field becomes "no value"), and the record
 * each row is turned into when it is inserted.
 */
module Seeding {
  import opened Wrappers
  import opened Models

  /** One line of a seed file: header names to field text; `None` marks a missing field. */
  type Row = map<string, Option<string>>

  /** The row with every empty field replaced by `None`. */
  function Normalised(row: Row): (r: Row)
    ensures r.Keys == row.Keys
    ensures forall k :: k in r ==> r[k] != Some("")
    ensures forall k :: k in row && row[k] == Some("") ==> r[k] == None
    ensures forall k :: k in row && row[k] != Some("") ==> r[k] == row[k]
  {
    map k | k in row :: if row[k] == Some("") then None else row[k]
  }

  /** A row with no empty field. */
  predicate IsNormal(row: Row)
  {
    forall k :: k in row ==> row[k] != Some("")
  }

  /** Normalising is idempotent: a row with no empty field is left as it is. */
  lemma NormalisedFixesNormal(row: Row)
    requires IsNormal(row)
    ensures Normalised(row) == row
  {
  }

  /** The in-place loops over the list of rows and over each row's keys. */
  method Normalise(data: array<Row>)
    modifies data
    ensures forall i :: 0 <= i < data.Length ==> data[i] == Normalised(old(data[i]))
  {
    for i := 0 to data.Length
      invariant forall j :: 0 <= j < i ==> data[j] == Normalised(old(data[j]))
      invariant forall j :: i <= j < data.Length ==> data[j] == old(data[j])
    {
      var keys := data[i].Keys;
      while keys != {}
        invariant keys <= data[i].Keys && data[i].Keys == old(data[i]).Keys
        invariant forall k :: k in data[i] && k !in keys ==> data[i][k] == Normalised(old(data[i]))[k]
        invariant forall k :: k in keys ==> data[i][k] == old(data[i])[k]
        invariant forall j :: 0 <= j < i ==> data[j] == Normalised(old(data[j]))
        invariant forall j :: i < j < data.Length ==> data[j] == old(data[j])
        decreases keys
      {
        var key :| key in keys;
        if data[i][key] == Some("") {
          data[i] := data[i][key := None];
        }
        keys := keys - {key};
      }
    }
  }

  /** The rows of a seed file, each normalised, in the same order. */
  function NormalisedRows(rows: seq<Row>): (r: seq<Row>)
    ensures |r| == |rows| && forall i :: 0 <= i < |rows| ==> r[i] == Normalised(rows[i])
  {
    seq(|rows|, i requires 0 <= i < |rows| => Normalised(rows[i]))
  }

  /** `get_data_from_csv` after the rows have been read: the same rows, normalised in place. */
  method GetDataFromCsv(rows: seq<Row>) returns (data: seq<Row>)
    ensures data == NormalisedRows(rows)
  {
    var lines := new Row[|rows|](i requires 0 <= i < |rows| => rows[i]);
    Normalise(lines);
    data := lines[..];
  }

  /**
   * The normalised rows keep their number, order and keys; hold no empty field,
   * each having become `None`; keep every non-empty field; and normalising them
   * again changes nothing.
   */
  lemma GetDataFromCsvProperties(rows: seq<Row>, data: seq<Row>)
    requires |data| == |rows|
    requires forall i :: 0 <= i < |rows| ==> data[i] == Normalised(rows[i])
    ensures forall i :: 0 <= i < |data| ==> data[i].Keys == rows[i].Keys && IsNormal(data[i])
    ensures forall i, k :: 0 <= i < |data| && k in rows[i] && rows[i][k] == Some("") ==> data[i][k] == None
    ensures forall i, k :: 0 <= i < |data| && k in rows[i] && rows[i][k] != Some("") ==> data[i][k] == rows[i][k]
    ensures forall i :: 0 <= i < |data| ==> Normalised(data[i]) == data[i]
  {
    forall i | 0 <= i < |data| ensures Normalised(data[i]) == data[i] {
      NormalisedFixesNormal(data[i]);
    }
  }

  /** The text of a field, `None` when the header lacks it or it is empty. */
  function Field(row: Row, key: string): Option<string>
  {
    if key in row then row[key] else None
  }

  /**
   * `Companies(**row)`: fails on a header that is not a column (`TypeError`) and
   * on a row without a ticker (the key may not be NULL).
   */
  function CompanyOfRow(row: Row): (r: Option<Company>)
    ensures r.Some? <==> (forall k :: k in row ==> k in CompanyColumnNames) && Field(row, "ticker").Some?
    ensures r.Some? ==> Some(r.value.ticker) == Field(row, "ticker")
    ensures r.Some? ==> r.value.name == Field(row, "name") && r.value.sector == Field(row, "sector")
  {
    if (forall k :: k in row ==> k in CompanyColumnNames) && Field(row, "ticker").Some? then
      Some(Company(Field(row, "ticker").value, Field(row, "name"), Field(row, "sector")))
    else None
  }

  /**
   * The number stored in column `c`: the field text converted by `toNumber`, or
   * NULL when the field is missing or empty.
   */
  function ColumnValue(row: Row, c: Column, toNumber: string -> Option<real>): Option<real>
  {
    if Field(row, ColumnName(c)).Some? then toNumber(Field(row, ColumnName(c)).value) else None
  }

  /**
   * Every present field other than the ticker converts to a number. `toNumber` is
   * Python's `float()`, which the `Float` columns apply to the text when the
   * session flushes; `None` stands for the `ValueError` it raises.
   */
  predicate NumbersConvert(row: Row, toNumber: string -> Option<real>)
  {
    forall k :: k in row && k != "ticker" && row[k].Some? ==> toNumber(row[k].value).Some?
  }

  /** A row `Financial(**row)` accepts and whose numbers the flush converts. */
  predicate FinancialRowAccepted(row: Row, toNumber: string -> Option<real>)
  {
    (forall k :: k in row ==> k in FinancialColumnNames) && Field(row, "ticker").Some? && NumbersConvert(row, toNumber)
  }

  /**
   * `Financial(**row)` and the flush of its numbers: fails on a header that is
   * not a column, on a row without a ticker and on a field `float()` rejects.
   */
  function FinancialOfRow(row: Row, toNumber: string -> Option<real>): (r: Option<Financial>)
    ensures r.Some? <==>
      (forall k :: k in row ==> k in FinancialColumnNames) && Field(row, "ticker").Some? && NumbersConvert(row, toNumber)
    ensures r.Some? ==> Some(r.value.ticker) == Field(row, "ticker")
  {
    if FinancialRowAccepted(row, toNumber) then
      Some(Financial(Field(row, "ticker").value,
        ColumnValue(row, Ebitda, toNumber), ColumnValue(row, Sales, toNumber),
        ColumnValue(row, NetProfit, toNumber), ColumnValue(row, MarketPrice, toNumber),
        ColumnValue(row, NetDebt, toNumber), ColumnValue(row, Assets, toNumber),
        ColumnValue(row, Equity, toNumber), ColumnValue(row, CashEquivalents, toNumber),
        ColumnValue(row, Liabilities, toNumber)))
    else None
  }

  /**
   * Each numeric column of the built row holds its field converted, NULL for a
   * missing or empty field; a present field always converts.
   */
  lemma FinancialOfRowColumn(row: Row, toNumber: string -> Option<real>, c: Column)
    requires FinancialOfRow(row, toNumber).Some?
    ensures FinancialOfRow(row, toNumber).value.Get(c) == ColumnValue(row, c, toNumber)
    ensures ColumnValue(row, c, toNumber).Some? <==> Field(row, ColumnName(c)).Some?
  {
    if Field(row, ColumnName(c)).Some? {
      assert ColumnName(c) in row && ColumnName(c) != "ticker";
    }
    match c
    case Ebitda =>
    case Sales =>
    case NetProfit =>
    case MarketPrice =>
    case NetDebt =>
    case Assets =>
    case Equity =>
    case CashEquivalents =>
    case Liabilities =>
  }

  /** A field that `float()` rejects, such as `n/a`, makes the row fail, whatever the other fields hold. */
  lemma UnconvertibleFieldFails(row: Row, toNumber: string -> Option<real>, c: Column)
    requires Field(row, ColumnName(c)).Some? && toNumber(Field(row, ColumnName(c)).value).None?
    ensures FinancialOfRow(row, toNumber).None?
  {
    assert ColumnName(c) in row && ColumnName(c) != "ticker";
  }
}

=== FILE: selection.dfy ===
/**
 * The name lookup shared by read, update and delete: the name pattern, the
 * choice of one match by a Python list index, and how the callers unpack the
 * answer into a ticker and a name.
 */
module Selection {
  import opened Wrappers
  import opened Models
  import opened SqlLike

  /** `Companies.name.like("%fragment%")`: a NULL name never matches. */
  predicate NameMatches(c: Company, fragment: string)
  {
    c.name.Some? && Like(c.name.value, "%" + fragment + "%")
  }

  /** What the lookup yields: `(None, None)`, the chosen company, or a bare `None`. */
  datatype Lookup = NotFound | Chosen(company: Company) | InvalidChoice

  /**
   * Picks `matches[choice]`; `choice` is the answer after `int(...)`, `None`
   * when that raised `ValueError`.
   */
  function Select(matches: seq<Company>, choice: Option<int>): (l: Lookup)
    ensures l == NotFound <==> matches == []
    ensures l == InvalidChoice <==>
      matches != [] && (choice == None || choice.value < -|matches| || choice.value >= |matches|)
    ensures l.Chosen? && choice.value >= 0 ==> l.company == matches[choice.value]
    ensures l.Chosen? && choice.value < 0 ==> l.company == matches[|matches| + choice.value]
  {
    if matches == [] then NotFound
    else match choice
      case None => InvalidChoice
      case Some(k) =>
        if 0 <= k < |matches| then Chosen(matches[k])
        else if -|matches| <= k < 0 then Chosen(matches[|matches| + k])
        else InvalidChoice
  }

  /** A negative index counts from the end: `-k` and `n - k` choose the same company. */
  lemma NegativeIndexFromEnd(matches: seq<Company>, k: int)
    requires 0 < k <= |matches|
    ensures Select(matches, Some(-k)) == Select(matches, Some(|matches| - k))
    ensures Select(matches, Some(-k)).Chosen?
  {
  }

  /**
   * The callers' `ticker, name = find_company_ticker_by_name(session)`, as the
   * code is written: the bare `None` of an invalid choice cannot be unpacked and
   * raises `TypeError` (result `None` here).
   */
  function UnpackAsWritten(l: Lookup): (r: Option<(Option<string>, Option<string>)>)
    ensures r == None <==> l == InvalidChoice
    ensures l == NotFound ==> r == Some((None, None))
    ensures l.Chosen? ==> r == Some((Some(l.company.ticker), l.company.name))
  {
    match l
    case NotFound => Some((None, None))
    case Chosen(c) => Some((Some(c.ticker), c.name))
    case InvalidChoice => None
  }

  /** After "Invalid input!" the program stops with an error instead of returning to the menu. */
  lemma InvalidIndexStopsTheProgram(c: Company)
    ensures Select([c], Some(1)) == InvalidChoice
    ensures Select([c], None) == InvalidChoice
    ensures UnpackAsWritten(Select([c], Some(1))) == None
  {
  }

  /** The unpacking as evidently intended: an invalid choice selects nothing, like no match. */
  function Unpack(l: Lookup): (r: (Option<string>, Option<string>))
    ensures r.0.Some? <==> l.Chosen?
    ensures !l.Chosen? ==> r == (None, None)
    ensures l.Chosen? ==> r == (Some(l.company.ticker), l.company.name)
    ensures l != InvalidChoice ==> Some(r) == UnpackAsWritten(l)
  {
    match l
    case Chosen(c) => (Some(c.ticker), c.name)
    case _ => (None, None)
  }

  /**
   * The ticker the operation goes on with: `if ticker:` also skips a chosen
   * company whose ticker is the empty string.
   */
  function Target(l: Lookup): (t: Option<string>)
    ensures t.Some? <==> l.Chosen? && l.company.ticker != ""
    ensures t.Some? ==> t.value == l.company.ticker
  {
    var (ticker, _) := Unpack(l);
    if ticker.Some? && ticker.value != "" then ticker else None
  }
}

=== FILE: store.dfy ===
/**
 * The investor store: the two tables as maps keyed by ticker, the session's
 * pending inserts, and the operations of the directory, ranking and seeding
 * code that change or query them.
 */
module Store {
  import opened Wrappers
  import opened Numbers
  import opened Order
  import opened Models
  import opened Ratios
  import opened CompanyData
  import opened Selection
  import opened Seeding
  import opened SqlLike

  /** An object added to the session, waiting for the commit. */
  datatype Record = CompanyRecord(company: Company) | FinancialRecord(financial: Financial)

  /** The two mapped classes `insert_to_database` can be handed. */
  datatype Entity = CompaniesTable | FinancialTable

  function CompanyKey(c: Company): string { c.ticker }
  function FinancialKey(f: Financial): string { f.ticker }

  /** Every row is stored under its own primary key. */
  ghost predicate Keyed<R>(m: map<string, R>, key: R -> string)
  {
    forall k :: k in m ==> key(m[k]) == k
  }

  /** The keys of a list of rows. */
  ghost function KeysOf<R>(rows: seq<R>, key: R -> string): set<string>
  {
    set i | 0 <= i < |rows| :: key(rows[i])
  }

  /**
   * INSERT of each row in turn; a key already present (or repeated among the
   * rows) violates the primary key and fails the whole transaction.
   */
  function InsertRows<R>(m: map<string, R>, rows: seq<R>, key: R -> string): Option<map<string, R>>
    decreases |rows|
  {
    if rows == [] then Some(m)
    else if key(rows[0]) in m then None
    else InsertRows(m[key(rows[0]) := rows[0]], rows[1..], key)
  }

  lemma {:induction false} KeysOfCons<R>(rows: seq<R>, key: R -> string)
    requires rows != []
    ensures KeysOf(rows, key) == {key(rows[0])} + KeysOf(rows[1..], key)
  {
    forall k | k in KeysOf(rows, key) ensures k in {key(rows[0])} + KeysOf(rows[1..], key) {
      var i :| 0 <= i < |rows| && key(rows[i]) == k;
      if i > 0 {
        assert key(rows[1..][i - 1]) == k;
      }
    }
    forall k | k in KeysOf(rows[1..], key) ensures k in KeysOf(rows, key) {
      var i :| 0 <= i < |rows[1..]| && key(rows[1..][i]) == k;
      assert key(rows[i + 1]) == k;
    }
    assert key(rows[0]) in KeysOf(rows, key);
  }

  /** A successful insert keeps every old row and has no keys but the old ones and the new rows'. */
  lemma {:induction false} InsertRowsKeeps<R>(m: map<string, R>, rows: seq<R>, key: R -> string)
    requires InsertRows(m, rows, key).Some?
    ensures forall k :: k in m ==> k in InsertRows(m, rows, key).value && InsertRows(m, rows, key).value[k] == m[k]
    ensures InsertRows(m, rows, key).value.Keys == m.Keys + KeysOf(rows, key)
    decreases |rows|
  {
    if rows != [] {
      InsertRowsKeeps(m[key(rows[0]) := rows[0]], rows[1..], key);
      KeysOfCons(rows, key);
    }
  }

  /** A successful insert grows the table by exactly one row per record. */
  lemma {:induction false} InsertRowsGrows<R>(m: map<string, R>, rows: seq<R>, key: R -> string)
    requires InsertRows(m, rows, key).Some?
    ensures |InsertRows(m, rows, key).value| == |m| + |rows|
    decreases |rows|
  {
    if rows != [] {
      var m' := m[key(rows[0]) := rows[0]];
      InsertRowsGrows(m', rows[1..], key);
      assert |m'| == |m| + 1;
    }
  }

  /** After a successful insert every new row is stored under its key. */
  lemma {:induction false} InsertRowsHolds<R>(m: map<string, R>, rows: seq<R>, key: R -> string, i: int)
    requires InsertRows(m, rows, key).Some? && 0 <= i < |rows|
    ensures key(rows[i]) in InsertRows(m, rows, key).value
    ensures InsertRows(m, rows, key).value[key(rows[i])] == rows[i]
    decreases |rows|
  {
    var m' := m[key(rows[0]) := rows[0]];
    if i == 0 {
      InsertRowsKeeps(m', rows[1..], key);
    } else {
      InsertRowsHolds(m', rows[1..], key, i - 1);
    }
  }

  /** A successful insert into a table whose rows are under their keys leaves every row under its key. */
  lemma {:induction false} InsertRowsKeyed<R>(m: map<string, R>, rows: seq<R>, key: R -> string)
    requires InsertRows(m, rows, key).Some? && Keyed(m, key)
    ensures Keyed(InsertRows(m, rows, key).value, key)
    decreases |rows|
  {
    if rows != [] {
      InsertRowsKeyed(m[key(rows[0]) := rows[0]], rows[1..], key);
    }
  }

  /**
   * A successful insert keeps every old row, holds every new row under its key,
   * has no other keys, and grows the table by exactly one row per record.
   */
  lemma InsertRowsEffect<R>(m: map<string, R>, rows: seq<R>, key: R -> string)
    requires InsertRows(m, rows, key).Some?
    ensures var u := InsertRows(m, rows, key).value;
      && (forall k :: k in m ==> k in u && u[k] == m[k])
      && (forall i :: 0 <= i < |rows| ==> key(rows[i]) in u && u[key(rows[i])] == rows[i])
      && u.Keys == m.Keys + KeysOf(rows, key)
      && |u| == |m| + |rows|
      && (Keyed(m, key) ==> Keyed(u, key))
  {
    var u := InsertRows(m, rows, key).value;
    InsertRowsKeeps(m, rows, key);
    InsertRowsGrows(m, rows, key);
    forall i | 0 <= i < |rows| ensures key(rows[i]) in u && u[key(rows[i])] == rows[i] {
      InsertRowsHolds(m, rows, key, i);
    }
    if Keyed(m, key) {
      InsertRowsKeyed(m, rows, key);
    }
  }

  /** An insert fails exactly when some row's key is already taken, by the table or an earlier row. */
  lemma {:induction false} InsertRowsFails<R>(m: map<string, R>, rows: seq<R>, key: R -> string)
    ensures InsertRows(m, rows, key) == None <==>
      exists i :: 0 <= i < |rows| && (key(rows[i]) in m || key(rows[i]) in KeysOf(rows[..i], key))
    decreases |rows|
  {
    if rows != [] {
      var m' := m[key(rows[0]) := rows[0]];
      InsertRowsFails(m', rows[1..], key);
      if key(rows[0]) in m {
        assert 0 <= 0 < |rows| && key(rows[0]) in m;
      } else {
        forall i | 1 <= i < |rows|
          ensures (key(rows[i]) in m || key(rows[i]) in KeysOf(rows[..i], key)) <==>
                  (key(rows[1..][i - 1]) in m' || key(rows[1..][i - 1]) in KeysOf(rows[1..][..i - 1], key))
        {
          assert rows[1..][i - 1] == rows[i];
          assert KeysOf(rows[..i], key) == {key(rows[0])} + KeysOf(rows[1..][..i - 1], key) by {
            forall k | k in KeysOf(rows[..i], key) ensures k in {key(rows[0])} + KeysOf(rows[1..][..i - 1], key) {
              var j :| 0 <= j < i && key(rows[..i][j]) == k;
              if j > 0 {
                assert key(rows[1..][..i - 1][j - 1]) == k;
              }
            }
            forall k | k in KeysOf(rows[1..][..i - 1], key) ensures k in KeysOf(rows[..i], key) {
              var j :| 0 <= j < i - 1 && key(rows[1..][..i - 1][j]) == k;
              assert key(rows[..i][j + 1]) == k;
            }
            assert key(rows[..i][0]) == key(rows[0]);
          }
        }
        if InsertRows(m, rows, key) == None {
          var i' :| 0 <= i' < |rows[1..]| && (key(rows[1..][i']) in m' || key(rows[1..][i']) in KeysOf(rows[1..][..i'], key));
          assert 0 <= i' + 1 < |rows|;
        } else {
          forall i | 0 <= i < |rows| ensures !(key(rows[i]) in m || key(rows[i]) in KeysOf(rows[..i], key)) {
            if i == 0 {
              assert KeysOf(rows[..0], key) == {};
            } else {
              assert !(key(rows[1..][i - 1]) in m' || key(rows[1..][i - 1]) in KeysOf(rows[1..][..i - 1], key));
            }
          }
        }
      }
    }
  }

  /** The company objects among the pending ones, in order. */
  function CompanyRecords(recs: seq<Record>): seq<Company>
  {
    if recs == [] then []
    else (if recs[0].CompanyRecord? then [recs[0].company] else []) + CompanyRecords(recs[1..])
  }

  /** The financial objects among the pending ones, in order. */
  function FinancialRecords(recs: seq<Record>): seq<Financial>
  {
    if recs == [] then []
    else (if recs[0].FinancialRecord? then [recs[0].financial] else []) + FinancialRecords(recs[1..])
  }

  /** The tables after committing `pending`, or `None` when the commit fails. */
  function Committed(companies: map<string, Company>, financial: map<string, Financial>, pending: seq<Record>)
    : Option<(map<string, Company>, map<string, Financial>)>
  {
    var cs := InsertRows(companies, CompanyRecords(pending), CompanyKey);
    var fs := InsertRows(financial, FinancialRecords(pending), FinancialKey);
    if cs.Some? && fs.Some? then Some((cs.value, fs.value)) else None
  }

  /**
   * Committing one new company and its financial row, as `create_company` does:
   * both rows go in under the ticker, unless either table already has it.
   */
  lemma CommitCompanyAndRow(companies: map<string, Company>, financial: map<string, Financial>,
                            company: Company, row: Financial)
    requires company.ticker == row.ticker
    ensures Committed(companies, financial, [CompanyRecord(company), FinancialRecord(row)]) ==
      if company.ticker in companies || row.ticker in financial then None
      else Some((companies[company.ticker := company], financial[row.ticker := row]))
  {
    var pending := [CompanyRecord(company), FinancialRecord(row)];
    assert pending[1..] == [FinancialRecord(row)] && pending[1..][1..] == [];
    assert CompanyRecords([FinancialRecord(row)]) == [];
    assert FinancialRecords([FinancialRecord(row)]) == [row];
    assert CompanyRecords(pending) == [company];
    assert FinancialRecords(pending) == [row];
    assert [company][1..] == [] && [row][1..] == [];
    assert InsertRows(companies, [company], CompanyKey) ==
      if company.ticker in companies then None else Some(companies[company.ticker := company]);
    assert InsertRows(financial, [row], FinancialKey) ==
      if row.ticker in financial then None else Some(financial[row.ticker := row]);
  }

  /** The object `entity_class(**row)` builds, or `None` when the constructor rejects the row. */
  function RecordOf(entity: Entity, row: Row, toNumber: string -> Option<real>): Option<Record>
  {
    match entity
    case CompaniesTable =>
      (match CompanyOfRow(row) case Some(c) => Some(CompanyRecord(c)) case None => None)
    case FinancialTable =>
      (match FinancialOfRow(row, toNumber) case Some(f) => Some(FinancialRecord(f)) case None => None)
  }

  /** `build` applied to every element, in order; `None` as soon as one element is rejected. */
  function BuildAll<T, U>(build: T -> Option<U>, xs: seq<T>): Option<seq<U>>
    decreases |xs|
  {
    if xs == [] then Some([])
    else
      match (BuildAll(build, xs[..|xs| - 1]), build(xs[|xs| - 1]))
      case (Some(init), Some(last)) => Some(init + [last])
      case _ => None
  }

  /** Building succeeds exactly when every element is accepted, and then gives one result per element. */
  lemma {:induction false} BuildAllOnePerElement<T, U>(build: T -> Option<U>, xs: seq<T>)
    ensures BuildAll(build, xs).Some? <==> forall i :: 0 <= i < |xs| ==> build(xs[i]).Some?
    ensures BuildAll(build, xs).Some? ==>
      && |BuildAll(build, xs).value| == |xs|
      && forall i :: 0 <= i < |xs| ==> BuildAll(build, xs).value[i] == build(xs[i]).value
    decreases |xs|
  {
    if xs != [] {
      var n := |xs| - 1;
      var init := xs[..n];
      BuildAllOnePerElement(build, init);
      assert forall i :: 0 <= i < n ==> init[i] == xs[i];
      if BuildAll(build, init).None? {
        var j :| 0 <= j < n && build(init[j]).None?;
        assert build(xs[j]).None?;
      }
    }
  }

  /** One object per row, in row order; `None` when some row is rejected. */
  function RecordsOf(entity: Entity, rows: seq<Row>, toNumber: string -> Option<real>): Option<seq<Record>>
  {
    BuildAll(row => RecordOf(entity, row, toNumber), rows)
  }

  /** Building succeeds exactly when every row is accepted, and then gives one object per row, built from it. */
  lemma RecordsOfOnePerRow(entity: Entity, rows: seq<Row>, toNumber: string -> Option<real>)
    ensures RecordsOf(entity, rows, toNumber).Some? <==>
      forall i :: 0 <= i < |rows| ==> RecordOf(entity, rows[i], toNumber).Some?
    ensures RecordsOf(entity, rows, toNumber).Some? ==>
      && |RecordsOf(entity, rows, toNumber).value| == |rows|
      && forall i :: 0 <= i < |rows| ==> RecordsOf(entity, rows, toNumber).value[i] == RecordOf(entity, rows[i], toNumber).value
  {
    BuildAllOnePerElement(row => RecordOf(entity, row, toNumber), rows);
  }

  lemma RecordsOfExtends(entity: Entity, rows: seq<Row>, toNumber: string -> Option<real>, i: int)
    requires 0 <= i < |rows| && RecordsOf(entity, rows[..i], toNumber).Some?
    requires RecordOf(entity, rows[i], toNumber).Some?
    ensures RecordsOf(entity, rows[..i + 1], toNumber) ==
      Some(RecordsOf(entity, rows[..i], toNumber).value + [RecordOf(entity, rows[i], toNumber).value])
  {
    assert rows[..i + 1][..i] == rows[..i];
  }

  lemma RecordsOfRejects(entity: Entity, rows: seq<Row>, toNumber: string -> Option<real>, i: int)
    requires 0 <= i < |rows| && RecordOf(entity, rows[i], toNumber).None?
    ensures RecordsOf(entity, rows, toNumber).None?
  {
    RecordsOfOnePerRow(entity, rows, toNumber);
  }

  /**
   * A line of the financial file with a field `float()` rejects stops the whole
   * seed: nothing is committed.
   */
  lemma UnconvertibleFieldStopsSeed(companies: map<string, Company>, financial: map<string, Financial>,
                                    financialCsv: seq<Row>, companiesCsv: seq<Row>, toNumber: string -> Option<real>,
                                    i: int, c: Column)
    requires 0 <= i < |financialCsv|
    requires Field(Normalised(financialCsv[i]), ColumnName(c)).Some?
    requires toNumber(Field(Normalised(financialCsv[i]), ColumnName(c)).value).None?
    ensures Seed(companies, financial, financialCsv, companiesCsv, toNumber).None?
  {
    UnconvertibleFieldFails(Normalised(financialCsv[i]), toNumber, c);
    RecordsOfRejects(FinancialTable, NormalisedRows(financialCsv), toNumber, i);
  }

  /**
   * The tables after seeding: every financial row and then every company row is
   * added, and all of it is committed together, or nothing is.
   */
  function Seed(companies: map<string, Company>, financial: map<string, Financial>,
                financialCsv: seq<Row>, companiesCsv: seq<Row>, toNumber: string -> Option<real>)
    : Option<(map<string, Company>, map<string, Financial>)>
  {
    var fin := RecordsOf(FinancialTable, NormalisedRows(financialCsv), toNumber);
    var com := RecordsOf(CompaniesTable, NormalisedRows(companiesCsv), toNumber);
    if fin.Some? && com.Some? then Committed(companies, financial, fin.value + com.value) else None
  }

  /** Seeding from rows already normalised: the financial objects, then the company objects, in one commit. */
  lemma SeedFromRecords(companies: map<string, Company>, financial: map<string, Financial>,
                        financialCsv: seq<Row>, companiesCsv: seq<Row>, toNumber: string -> Option<real>,
                        fin: Option<seq<Record>>, com: Option<seq<Record>>)
    requires fin == RecordsOf(FinancialTable, NormalisedRows(financialCsv), toNumber)
    requires com == RecordsOf(CompaniesTable, NormalisedRows(companiesCsv), toNumber)
    ensures Seed(companies, financial, financialCsv, companiesCsv, toNumber) ==
      if fin.Some? && com.Some? then Committed(companies, financial, fin.value + com.value) else None
  {
  }

  /** The objects built for the companies table are company objects, one per row, built from it. */
  lemma CompanyRecordsOfRows(rows: seq<Row>, toNumber: string -> Option<real>)
    requires RecordsOf(CompaniesTable, rows, toNumber).Some?
    ensures var recs := RecordsOf(CompaniesTable, rows, toNumber).value;
      && FinancialRecords(recs) == [] && |CompanyRecords(recs)| == |rows|
      && forall i :: 0 <= i < |rows| ==> CompanyOfRow(rows[i]) == Some(CompanyRecords(recs)[i])
  {
    var recs := RecordsOf(CompaniesTable, rows, toNumber).value;
    RecordsOfOnePerRow(CompaniesTable, rows, toNumber);
    forall i | 0 <= i < |recs| ensures recs[i].CompanyRecord? && CompanyOfRow(rows[i]) == Some(recs[i].company) {
      assert recs[i] == RecordOf(CompaniesTable, rows[i], toNumber).value;
    }
    OneTableRecords(recs, CompaniesTable);
  }

  /** The objects built for the financial table are financial objects, one per row, built from it. */
  lemma FinancialRecordsOfRows(rows: seq<Row>, toNumber: string -> Option<real>)
    requires RecordsOf(FinancialTable, rows, toNumber).Some?
    ensures var recs := RecordsOf(FinancialTable, rows, toNumber).value;
      && CompanyRecords(recs) == [] && |FinancialRecords(recs)| == |rows|
      && forall i :: 0 <= i < |rows| ==> FinancialOfRow(rows[i], toNumber) == Some(FinancialRecords(recs)[i])
  {
    var recs := RecordsOf(FinancialTable, rows, toNumber).value;
    RecordsOfOnePerRow(FinancialTable, rows, toNumber);
    forall i | 0 <= i < |recs| ensures recs[i].FinancialRecord? && FinancialOfRow(rows[i], toNumber) == Some(recs[i].financial) {
      assert recs[i] == RecordOf(FinancialTable, rows[i], toNumber).value;
    }
    OneTableRecords(recs, FinancialTable);
  }

  /** Filtering a list of objects that all belong to one table keeps them all, in order. */
  lemma {:induction false} OneTableRecords(recs: seq<Record>, entity: Entity)
    requires forall i :: 0 <= i < |recs| ==> (recs[i].CompanyRecord? <==> entity == CompaniesTable)
    ensures entity == CompaniesTable ==> FinancialRecords(recs) == [] && |CompanyRecords(recs)| == |recs|
    ensures entity == CompaniesTable ==> forall i :: 0 <= i < |recs| ==> CompanyRecords(recs)[i] == recs[i].company
    ensures entity == FinancialTable ==> CompanyRecords(recs) == [] && |FinancialRecords(recs)| == |recs|
    ensures entity == FinancialTable ==> forall i :: 0 <= i < |recs| ==> FinancialRecords(recs)[i] == recs[i].financial
  {
    if recs != [] {
      OneTableRecords(recs[1..], entity);
      assert forall i :: 1 <= i < |recs| ==> recs[1..][i - 1] == recs[i];
    }
  }

  lemma {:induction false} RecordsAppend(a: seq<Record>, b: seq<Record>)
    ensures CompanyRecords(a + b) == CompanyRecords(a) + CompanyRecords(b)
    ensures FinancialRecords(a + b) == FinancialRecords(a) + FinancialRecords(b)
  {
    if a != [] {
      RecordsAppend(a[1..], b);
      assert (a + b)[0] == a[0] && (a + b)[1..] == a[1..] + b;
      assert CompanyRecords(a + b) == (if a[0].CompanyRecord? then [a[0].company] else []) + CompanyRecords(a[1..] + b);
      assert FinancialRecords(a + b) == (if a[0].FinancialRecord? then [a[0].financial] else []) + FinancialRecords(a[1..] + b);
    } else {
      assert a + b == b;
    }
  }

  /**
   * A successful seed is two inserts, one per table, of the objects built from
   * the lines of that table's seed file, one per line and in line order.
   */
  lemma SeedSplits(companies: map<string, Company>, financial: map<string, Financial>,
                   financialCsv: seq<Row>, companiesCsv: seq<Row>, toNumber: string -> Option<real>)
    returns (cr: seq<Company>, fr: seq<Financial>)
    requires Seed(companies, financial, financialCsv, companiesCsv, toNumber).Some?
    ensures |cr| == |companiesCsv| && |fr| == |financialCsv|
    ensures forall i :: 0 <= i < |companiesCsv| ==> CompanyOfRow(Normalised(companiesCsv[i])) == Some(cr[i])
    ensures forall i :: 0 <= i < |financialCsv| ==> FinancialOfRow(Normalised(financialCsv[i]), toNumber) == Some(fr[i])
    ensures InsertRows(companies, cr, CompanyKey).Some? && InsertRows(financial, fr, FinancialKey).Some?
    ensures Seed(companies, financial, financialCsv, companiesCsv, toNumber).value ==
      (InsertRows(companies, cr, CompanyKey).value, InsertRows(financial, fr, FinancialKey).value)
  {
    var finRows, comRows := NormalisedRows(financialCsv), NormalisedRows(companiesCsv);
    SeedFromRecords(companies, financial, financialCsv, companiesCsv, toNumber,
                    RecordsOf(FinancialTable, finRows, toNumber), RecordsOf(CompaniesTable, comRows, toNumber));
    var fin := RecordsOf(FinancialTable, finRows, toNumber).value;
    var com := RecordsOf(CompaniesTable, comRows, toNumber).value;
    FinancialRecordsOfRows(finRows, toNumber);
    CompanyRecordsOfRows(comRows, toNumber);
    RecordsAppend(fin, com);
    cr, fr := CompanyRecords(com), FinancialRecords(fin);
    assert CompanyRecords(fin + com) == [] + cr == cr;
    assert FinancialRecords(fin + com) == fr + [] == fr;
    forall i | 0 <= i < |companiesCsv| ensures CompanyOfRow(Normalised(companiesCsv[i])) == Some(cr[i]) {
      assert comRows[i] == Normalised(companiesCsv[i]);
    }
    forall i | 0 <= i < |financialCsv| ensures FinancialOfRow(Normalised(financialCsv[i]), toNumber) == Some(fr[i]) {
      assert finRows[i] == Normalised(financialCsv[i]);
    }
  }

  /**
   * A successful seed adds exactly one row per line of each seed file, built
   * from that line, and keeps every row already stored.
   */
  lemma SeedAddsOneRowPerLine(companies: map<string, Company>, financial: map<string, Financial>,
                              financialCsv: seq<Row>, companiesCsv: seq<Row>, toNumber: string -> Option<real>)
    requires Seed(companies, financial, financialCsv, companiesCsv, toNumber).Some?
    ensures var cs := Seed(companies, financial, financialCsv, companiesCsv, toNumber).value.0;
      var fs := Seed(companies, financial, financialCsv, companiesCsv, toNumber).value.1;
      && |cs| == |companies| + |companiesCsv| && |fs| == |financial| + |financialCsv|
      && (forall k :: k in companies ==> k in cs && cs[k] == companies[k])
      && (forall k :: k in financial ==> k in fs && fs[k] == financial[k])
      && (forall i :: 0 <= i < |companiesCsv| ==>
            CompanyOfRow(Normalised(companiesCsv[i])).Some? &&
            var c := CompanyOfRow(Normalised(companiesCsv[i])).value; c.ticker in cs && cs[c.ticker] == c)
      && (forall i :: 0 <= i < |financialCsv| ==>
            FinancialOfRow(Normalised(financialCsv[i]), toNumber).Some? &&
            var f := FinancialOfRow(Normalised(financialCsv[i]), toNumber).value; f.ticker in fs && fs[f.ticker] == f)
  {
    var cr, fr := SeedSplits(companies, financial, financialCsv, companiesCsv, toNumber);
    var cs, fs := InsertRows(companies, cr, CompanyKey).value, InsertRows(financial, fr, FinancialKey).value;
    InsertRowsEffect(companies, cr, CompanyKey);
    InsertRowsEffect(financial, fr, FinancialKey);
    forall i | 0 <= i < |companiesCsv| ensures cr[i].ticker in cs && cs[cr[i].ticker] == cr[i] {
      assert CompanyKey(cr[i]) == cr[i].ticker;
    }
    forall i | 0 <= i < |financialCsv| ensures fr[i].ticker in fs && fs[fr[i].ticker] == fr[i] {
      assert FinancialKey(fr[i]) == fr[i].ticker;
    }
  }

  /** The smallest ticker of a non-empty set, in the store's collation. */
  method FirstTicker(keys: set<string>) returns (t: string)
    requires keys != {}
    ensures t in keys && forall u :: u in keys && u != t ==> Below(t, u)
  {
    t :| t in keys;
    var rest := keys - {t};
    while rest != {}
      invariant t in keys && rest <= keys
      invariant forall u :: u in keys && u !in rest && u != t ==> Below(t, u)
      decreases rest
    {
      var u :| u in rest;
      if Below(u, t) {
        forall w | w in keys && w !in rest && w != u ensures Below(u, w) {
          if w != t {
            BelowTransitive(u, t, w);
          }
        }
        t := u;
      } else if u != t {
        BelowTotal(t, u);
      }
      rest := rest - {u};
    }
  }

  /** Strictly ascending ticker order, in the store's collation. */
  ghost predicate Ascending(rows: seq<Company>)
  {
    forall i, j :: 0 <= i < j < |rows| ==> Below(rows[i].ticker, rows[j].ticker)
  }

  /** Every listed row is stored under its ticker, every stored row is listed, in ascending ticker order. */
  ghost predicate IsListing(rows: seq<Company>, companies: map<string, Company>)
  {
    && (forall i :: 0 <= i < |rows| ==> rows[i].ticker in companies && companies[rows[i].ticker] == rows[i])
    && (forall t :: t in companies ==> companies[t] in rows)
    && Ascending(rows)
  }

  /**
   * Invariant of the listing loop, first half: `rows` lists exactly the stored
   * companies whose ticker is no longer in `remaining`.
   */
  ghost predicate ListedRows(rows: seq<Company>, remaining: set<string>, companies: map<string, Company>)
  {
    && remaining <= companies.Keys
    && |rows| + |remaining| == |companies|
    && (forall i :: 0 <= i < |rows| ==>
          rows[i].ticker in companies && rows[i].ticker !in remaining && companies[rows[i].ticker] == rows[i])
    && (forall t :: t in companies && t !in remaining ==> companies[t] in rows)
  }

  /** Second half: `rows` is in ascending order and below every remaining ticker. */
  ghost predicate ListedInOrder(rows: seq<Company>, remaining: set<string>)
  {
    && Ascending(rows)
    && (forall i, t :: 0 <= i < |rows| && t in remaining ==> Below(rows[i].ticker, t))
  }

  lemma ListedRowsStep(rows: seq<Company>, remaining: set<string>, companies: map<string, Company>, t: string)
    requires Keyed(companies, CompanyKey) && ListedRows(rows, remaining, companies) && t in remaining
    ensures ListedRows(rows + [companies[t]], remaining - {t}, companies)
  {
    var next := rows + [companies[t]];
    assert forall i :: 0 <= i < |rows| ==> next[i] == rows[i];
    assert next[|rows|] == companies[t];
    assert |remaining - {t}| == |remaining| - 1;
  }

  lemma ListedInOrderStep(rows: seq<Company>, remaining: set<string>, company: Company)
    requires ListedInOrder(rows, remaining) && company.ticker in remaining
    requires forall u :: u in remaining && u != company.ticker ==> Below(company.ticker, u)
    ensures ListedInOrder(rows + [company], remaining - {company.ticker})
  {
    var next := rows + [company];
    assert forall i :: 0 <= i < |rows| ==> next[i] == rows[i];
    assert next[|rows|] == company;
  }

  /** Every row of `companies`, in ascending ticker order (`ORDER BY ticker`). */
  method SortedByTicker(companies: map<string, Company>) returns (rows: seq<Company>)
    requires Keyed(companies, CompanyKey)
    ensures |rows| == |companies|
    ensures IsListing(rows, companies)
  {
    var remaining := companies.Keys;
    rows := [];
    while remaining != {}
      invariant ListedRows(rows, remaining, companies) && ListedInOrder(rows, remaining)
      decreases remaining
    {
      var t := FirstTicker(remaining);
      ListedRowsStep(rows, remaining, companies, t);
      ListedInOrderStep(rows, remaining, companies[t]);
      rows := rows + [companies[t]];
      remaining := remaining - {t};
    }
  }

  /** The listing of a table is determined by the table: two listings of it are the same list. */
  lemma ListingIsUnique(a: seq<Company>, b: seq<Company>, companies: map<string, Company>)
    requires IsListing(a, companies) && IsListing(b, companies)
    ensures a == b
  {
    forall x ensures x in a <==> x in b {
      if x in a {
        var i :| 0 <= i < |a| && a[i] == x;
        assert companies[a[i].ticker] in b;
      }
      if x in b {
        var i :| 0 <= i < |b| && b[i] == x;
        assert companies[b[i].ticker] in a;
      }
    }
    AscendingListsAgree(a, b);
  }

  /**
   * Invariant of the filtering loop, first half: `matches` holds exactly the
   * rows before position `i` that `keep` accepts.
   */
  ghost predicate KeptRows(rows: seq<Company>, keep: Company -> bool, matches: seq<Company>, i: int)
    requires 0 <= i <= |rows|
  {
    && (forall k :: 0 <= k < |matches| ==> keep(matches[k]) && matches[k] in rows)
    && (forall k :: 0 <= k < i && keep(rows[k]) ==> rows[k] in matches)
  }

  /** Second half: `matches` is ascending and below every row from position `i` on. */
  ghost predicate KeptInOrder(rows: seq<Company>, matches: seq<Company>, i: int)
    requires 0 <= i <= |rows|
  {
    && Ascending(matches)
    && (forall k, j :: 0 <= k < |matches| && i <= j < |rows| ==> Below(matches[k].ticker, rows[j].ticker))
  }

  lemma KeptRowsStep(rows: seq<Company>, keep: Company -> bool, matches: seq<Company>, i: int)
    requires 0 <= i < |rows| && KeptRows(rows, keep, matches, i)
    ensures KeptRows(rows, keep, if keep(rows[i]) then matches + [rows[i]] else matches, i + 1)
  {
    if keep(rows[i]) {
      var next := matches + [rows[i]];
      assert forall k :: 0 <= k < |matches| ==> next[k] == matches[k];
      assert next[|matches|] == rows[i];
    }
  }

  lemma KeptInOrderStep(rows: seq<Company>, matches: seq<Company>, i: int, kept: bool)
    requires 0 <= i < |rows| && Ascending(rows) && KeptInOrder(rows, matches, i)
    ensures KeptInOrder(rows, if kept then matches + [rows[i]] else matches, i + 1)
  {
    if kept {
      var next := matches + [rows[i]];
      assert forall k :: 0 <= k < |matches| ==> next[k] == matches[k];
      assert next[|matches|] == rows[i];
    }
  }

  /** The listed rows that `keep` accepts, in listed order. */
  method KeepMatching(rows: seq<Company>, keep: Company -> bool) returns (matches: seq<Company>)
    requires Ascending(rows)
    ensures forall k :: 0 <= k < |matches| ==> keep(matches[k]) && matches[k] in rows
    ensures forall x :: x in rows && keep(x) ==> x in matches
    ensures Ascending(matches)
  {
    matches := [];
    for i := 0 to |rows|
      invariant KeptRows(rows, keep, matches, i) && KeptInOrder(rows, matches, i)
    {
      KeptRowsStep(rows, keep, matches, i);
      KeptInOrderStep(rows, matches, i, keep(rows[i]));
      if keep(rows[i]) {
        matches := matches + [rows[i]];
      }
    }
    assert forall x :: x in rows ==> exists k :: 0 <= k < |rows| && rows[k] == x;
  }

  /** The companies whose name contains `fragment`, as listed in ascending ticker order. */
  ghost predicate IsMatchList(matches: seq<Company>, companies: map<string, Company>, fragment: string)
  {
    && (forall i :: 0 <= i < |matches| ==> NameMatches(matches[i], fragment))
    && (forall t :: t in companies && NameMatches(companies[t], fragment) ==> companies[t] in matches)
    && (forall i :: 0 <= i < |matches| ==> matches[i].ticker in companies && companies[matches[i].ticker] == matches[i])
    && Ascending(matches)
  }

  /** The tail of an ascending list is ascending and holds every member but the head. */
  lemma AscendingTail(a: seq<Company>)
    requires Ascending(a) && a != []
    ensures Ascending(a[1..])
    ensures forall x :: x in a[1..] <==> x in a && x != a[0]
  {
    forall k | 1 <= k < |a| ensures a[1..][k - 1] == a[k] != a[0] {
      BelowIrreflexive(a[0].ticker);
    }
    forall x | x in a && x != a[0] ensures x in a[1..] {
      var n :| 0 <= n < |a| && a[n] == x;
      assert a[1..][n - 1] == x;
    }
  }

  /** Two ascending lists with the same members begin with the same company. */
  lemma AscendingHeadsAgree(a: seq<Company>, b: seq<Company>)
    requires Ascending(a) && Ascending(b) && a != []
    requires forall x :: x in a <==> x in b
    ensures b != [] && a[0] == b[0]
  {
    assert a[0] in b;
    assert b != [] && b[0] in a;
    var i :| 0 <= i < |a| && a[i] == b[0];
    var j :| 0 <= j < |b| && b[j] == a[0];
    if i != 0 && j != 0 {
      BelowAsymmetric(a[0].ticker, a[i].ticker);
    } else if i != 0 {
      BelowIrreflexive(a[0].ticker);
    } else if j != 0 {
      BelowIrreflexive(b[0].ticker);
    }
  }

  /** Two lists in strictly ascending ticker order with the same members are the same list. */
  lemma {:induction false} AscendingListsAgree(a: seq<Company>, b: seq<Company>)
    requires Ascending(a) && Ascending(b)
    requires forall x :: x in a <==> x in b
    ensures a == b
    decreases |a|
  {
    if a == [] {
      assert forall i :: 0 <= i < |b| ==> b[i] in a;
    } else {
      AscendingHeadsAgree(a, b);
      AscendingTail(a);
      AscendingTail(b);
      AscendingListsAgree(a[1..], b[1..]);
      assert a == [a[0]] + a[1..] && b == [b[0]] + b[1..];
    }
  }

  /** The lookup is determined by the stored companies: there is only one match list. */
  lemma MatchListIsUnique(m1: seq<Company>, m2: seq<Company>, companies: map<string, Company>, fragment: string)
    requires IsMatchList(m1, companies, fragment) && IsMatchList(m2, companies, fragment)
    ensures m1 == m2
  {
    forall x ensures x in m1 <==> x in m2 {
      if x in m1 {
        var i :| 0 <= i < |m1| && m1[i] == x;
        assert companies[x.ticker] == x;
      }
      if x in m2 {
        var i :| 0 <= i < |m2| && m2[i] == x;
        assert companies[x.ticker] == x;
      }
    }
    AscendingListsAgree(m1, m2);
  }

  /** `a` ranks at least as high as `b` in descending order, with the undefined value last. */
  predicate AtLeast(a: Ratio, b: Ratio)
  {
    match (a, b)
    case (Numeric(x), Numeric(y)) => x >= y
    case (_, Undefined) => true
    case (Undefined, Numeric(_)) => false
  }

  /** Ranking order of (ticker, value) lines: higher value first; equal values by ascending ticker. */
  predicate RankedBefore(a: (string, Ratio), b: (string, Ratio))
  {
    (a.1 != b.1 && AtLeast(a.1, b.1)) || (a.1 == b.1 && Below(a.0, b.0))
  }

  lemma RankedBeforeTransitive(a: (string, Ratio), b: (string, Ratio), c: (string, Ratio))
    requires RankedBefore(a, b) && RankedBefore(b, c)
    ensures RankedBefore(a, c)
  {
    if a.1 == b.1 && b.1 == c.1 {
      BelowTransitive(a.0, b.0, c.0);
    }
  }

  lemma RankedBeforeTotal(a: (string, Ratio), b: (string, Ratio))
    requires a.0 != b.0
    ensures RankedBefore(a, b) || RankedBefore(b, a)
  {
    BelowTotal(a.0, b.0);
  }

  /** The line of the ranking report for one stored row. */
  function RankLine(financial: map<string, Financial>, ind: Indicator, t: string): (string, Ratio)
    requires t in financial
  {
    (t, IndicatorValue(ind, financial[t]))
  }

  /** The best-ranked ticker of a non-empty set of stored rows. */
  method FirstRanked(financial: map<string, Financial>, ind: Indicator, keys: set<string>) returns (t: string)
    requires keys != {} && keys <= financial.Keys
    ensures t in keys
    ensures forall u :: u in keys && u != t ==> RankedBefore(RankLine(financial, ind, t), RankLine(financial, ind, u))
  {
    t :| t in keys;
    var rest := keys - {t};
    while rest != {}
      invariant t in keys && rest <= keys
      invariant forall u :: u in keys && u !in rest && u != t ==>
        RankedBefore(RankLine(financial, ind, t), RankLine(financial, ind, u))
      decreases rest
    {
      var u :| u in rest;
      if RankedBefore(RankLine(financial, ind, u), RankLine(financial, ind, t)) {
        forall w | w in keys && w !in rest && w != u
          ensures RankedBefore(RankLine(financial, ind, u), RankLine(financial, ind, w))
        {
          if w != t {
            RankedBeforeTransitive(RankLine(financial, ind, u), RankLine(financial, ind, t), RankLine(financial, ind, w));
          }
        }
        t := u;
      } else if u != t {
        RankedBeforeTotal(RankLine(financial, ind, t), RankLine(financial, ind, u));
      }
      rest := rest - {u};
    }
  }

  function Min(a: int, b: int): int { if a <= b then a else b }

  /**
   * The top-ten report: at most ten lines, each a stored ticker with its
   * indicator value, in ranking order, and no row left out ranks above any line.
   */
  ghost predicate IsTopTen(lines: seq<(string, Ratio)>, financial: map<string, Financial>, ind: Indicator)
  {
    && |lines| == Min(10, |financial|)
    && (forall i :: 0 <= i < |lines| ==> lines[i].0 in financial && lines[i] == RankLine(financial, ind, lines[i].0))
    && (forall i, j :: 0 <= i < j < |lines| ==> RankedBefore(lines[i], lines[j]))
    && (forall t, i :: t in financial && RankLine(financial, ind, t) !in lines && 0 <= i < |lines| ==>
          RankedBefore(lines[i], RankLine(financial, ind, t)))
  }

  /**
   * Invariant of the ranking loop, first half: `lines` holds the lines of
   * exactly the rows no longer in `remaining`, at most ten of them.
   */
  ghost predicate RankedRows(lines: seq<(string, Ratio)>, remaining: set<string>,
                             financial: map<string, Financial>, ind: Indicator)
  {
    && remaining <= financial.Keys
    && |lines| <= 10 && |lines| + |remaining| == |financial|
    && (forall i :: 0 <= i < |lines| ==>
          lines[i].0 in financial && lines[i].0 !in remaining && lines[i] == RankLine(financial, ind, lines[i].0))
    && (forall t :: t in financial && t !in remaining ==> RankLine(financial, ind, t) in lines)
  }

  /** Second half: `lines` is in ranking order and ranked before every remaining row. */
  ghost predicate RankedInOrder(lines: seq<(string, Ratio)>, remaining: set<string>,
                                financial: map<string, Financial>, ind: Indicator)
  {
    && (forall i, j :: 0 <= i < j < |lines| ==> RankedBefore(lines[i], lines[j]))
    && (forall i, t :: 0 <= i < |lines| && t in remaining && t in financial ==>
          RankedBefore(lines[i], RankLine(financial, ind, t)))
  }

  lemma RankedRowsStep(lines: seq<(string, Ratio)>, remaining: set<string>,
                       financial: map<string, Financial>, ind: Indicator, t: string)
    requires RankedRows(lines, remaining, financial, ind) && |lines| < 10 && t in remaining
    ensures RankedRows(lines + [RankLine(financial, ind, t)], remaining - {t}, financial, ind)
  {
    var next := lines + [RankLine(financial, ind, t)];
    assert forall i :: 0 <= i < |lines| ==> next[i] == lines[i];
    assert next[|lines|] == RankLine(financial, ind, t);
    assert |remaining - {t}| == |remaining| - 1;
  }

  lemma RankedInOrderStep(lines: seq<(string, Ratio)>, remaining: set<string>,
                          financial: map<string, Financial>, ind: Indicator, t: string)
    requires RankedInOrder(lines, remaining, financial, ind) && t in remaining && remaining <= financial.Keys
    requires forall u :: u in remaining && u != t ==> RankedBefore(RankLine(financial, ind, t), RankLine(financial, ind, u))
    ensures RankedInOrder(lines + [RankLine(financial, ind, t)], remaining - {t}, financial, ind)
  {
    var next := lines + [RankLine(financial, ind, t)];
    assert forall i :: 0 <= i < |lines| ==> next[i] == lines[i];
    assert next[|lines|] == RankLine(financial, ind, t);
  }

  /** The ten best-ranked lines of `financial` (`ORDER BY indicator DESC LIMIT 10`). */
  method TopLines(financial: map<string, Financial>, ind: Indicator) returns (lines: seq<(string, Ratio)>)
    ensures IsTopTen(lines, financial, ind)
  {
    var remaining := financial.Keys;
    lines := [];
    while |lines| < 10 && remaining != {}
      invariant RankedRows(lines, remaining, financial, ind) && RankedInOrder(lines, remaining, financial, ind)
      decreases remaining
    {
      var t := FirstRanked(financial, ind, remaining);
      RankedRowsStep(lines, remaining, financial, ind, t);
      RankedInOrderStep(lines, remaining, financial, ind, t);
      lines := lines + [RankLine(financial, ind, t)];
      remaining := remaining - {t};
    }
  }

  /** The report's values never increase down the list, and no ticker appears twice. */
  lemma TopTenNonIncreasing(lines: seq<(string, Ratio)>, financial: map<string, Financial>, ind: Indicator)
    requires IsTopTen(lines, financial, ind)
    ensures |lines| <= 10
    ensures forall i, j :: 0 <= i < j < |lines| ==> AtLeast(lines[i].1, lines[j].1) && lines[i].0 != lines[j].0
  {
    forall i, j | 0 <= i < j < |lines| ensures AtLeast(lines[i].1, lines[j].1) && lines[i].0 != lines[j].0 {
      assert RankedBefore(lines[i], lines[j]);
      BelowIrreflexive(lines[i].0);
    }
  }

  /** The keys a `ticker.like(pattern)` filter selects from a table. */
  function KeysLike<R>(m: map<string, R>, pattern: string): set<string>
  {
    set t | t in m.Keys && Like(t, pattern)
  }

  /**
   * A filter on a stored ticker always selects that ticker's own row; when no
   * other stored ticker is `LIKE` it, that row is the only one selected.
   */
  lemma KeysLikeOwnKey<R>(m: map<string, R>, t: string)
    requires t in m
    ensures t in KeysLike(m, t)
    ensures (forall u :: u in m && u != t ==> !Like(u, t)) ==> KeysLike(m, t) == {t}
  {
    LikeSelf(t);
  }

  /** `DELETE ... WHERE ticker LIKE pattern`: the rows whose key matches go, the others stay as they were. */
  function DeleteLike<R>(m: map<string, R>, pattern: string): (r: map<string, R>)
    ensures forall t :: t in r <==> t in m && !Like(t, pattern)
    ensures forall t :: t in r ==> r[t] == m[t]
    ensures pattern !in r
  {
    LikeSelf(pattern);
    m - KeysLike(m, pattern)
  }

  /**
   * `UPDATE financial SET ... WHERE ticker LIKE pattern`: the field map is written
   * onto every row whose key matches; the others, and the set of keys, stay.
   */
  function UpdateLike(m: map<string, Financial>, pattern: string, fields: seq<(Column, real)>): (r: map<string, Financial>)
    ensures r.Keys == m.Keys
    ensures forall t :: t in m && !Like(t, pattern) ==> r[t] == m[t]
    ensures forall t :: t in m && Like(t, pattern) ==> r[t] == ApplyFields(m[t], fields)
  {
    map t | t in m :: if Like(t, pattern) then ApplyFields(m[t], fields) else m[t]
  }

  /** What reading a company shows. */
  datatype ReadOutcome =
    | NothingSelected
      /** The company has no `financial` row: the code stops with `AttributeError`. */
    | MissingFinancial(ticker: string)
      /** More than one `financial` row matches: `scalar()` raises `MultipleResultsFound`. */
    | AmbiguousFinancial(ticker: string)
    | Shown(ticker: string, name: Option<string>, ratios: seq<(string, Ratio)>)

  class Database {
    /** Names of the tables present in the database file. */
    var tables: set<string>
    var companies: map<string, Company>
    var financial: map<string, Financial>
    /** Objects added to the session and not yet committed. */
    var pending: seq<Record>

    ghost predicate Valid()
      reads this
    {
      Keyed(companies, CompanyKey) && Keyed(financial, FinancialKey)
    }

    /** Every company has its financial row and the other way round. */
    ghost predicate Paired()
      reads this
    {
      companies.Keys == financial.Keys
    }

    /** A database file that does not exist yet: no tables, no rows. */
    constructor ()
      ensures Valid() && tables == {} && companies == map[] && financial == map[] && pending == []
    {
      tables, companies, financial, pending := {}, map[], map[], [];
    }

    /** `session.add`. */
    method Add(r: Record)
      modifies this`pending
      ensures pending == old(pending) + [r]
    {
      pending := pending + [r];
    }

    /** `session.commit`: all pending inserts take effect, or, on a key conflict, none does. */
    method Commit() returns (ok: bool)
      requires Valid()
      modifies this`companies, this`financial, this`pending
      ensures Valid() && pending == []
      ensures ok == Committed(old(companies), old(financial), old(pending)).Some?
      ensures ok ==> (companies, financial) == Committed(old(companies), old(financial), old(pending)).value
      ensures !ok ==> companies == old(companies) && financial == old(financial)
    {
      var cs := InsertRows(companies, CompanyRecords(pending), CompanyKey);
      var fs := InsertRows(financial, FinancialRecords(pending), FinancialKey);
      ok := cs.Some? && fs.Some?;
      if ok {
        InsertRowsKeyed(companies, CompanyRecords(pending), CompanyKey);
        InsertRowsKeyed(financial, FinancialRecords(pending), FinancialKey);
        companies, financial := cs.value, fs.value;
      }
      pending := [];
    }

    /** `insert_to_database`: one object per row added to the session, stopping at a rejected row. */
    method InsertToDatabase(entity: Entity, data: seq<Row>, toNumber: string -> Option<real>) returns (ok: bool)
      modifies this`pending
      ensures ok == RecordsOf(entity, data, toNumber).Some?
      ensures ok ==> pending == old(pending) + RecordsOf(entity, data, toNumber).value
    {
      for i := 0 to |data|
        invariant RecordsOf(entity, data[..i], toNumber).Some?
        invariant pending == old(pending) + RecordsOf(entity, data[..i], toNumber).value
      {
        var r := RecordOf(entity, data[i], toNumber);
        if r.None? {
          RecordsOfRejects(entity, data, toNumber, i);
          return false;
        }
        RecordsOfExtends(entity, data, toNumber, i);
        Add(r.value);
      }
      assert data[..|data|] == data;
      ok := true;
    }

    /**
     * `init_database`: nothing happens when the file already has exactly two
     * tables; otherwise the tables are created and both seed files are loaded in
     * one commit.
     */
    method InitDatabase(financialCsv: seq<Row>, companiesCsv: seq<Row>, toNumber: string -> Option<real>)
      returns (seeded: bool)
      requires Valid() && pending == []
      modifies this
      ensures Valid() && pending == []
      ensures |old(tables)| == 2 ==> !seeded && tables == old(tables)
      ensures |old(tables)| != 2 ==> tables == old(tables) + {"companies", "financial"}
      ensures |old(tables)| != 2 ==>
        seeded == Seed(old(companies), old(financial), financialCsv, companiesCsv, toNumber).Some?
      ensures seeded ==>
        (companies, financial) == Seed(old(companies), old(financial), financialCsv, companiesCsv, toNumber).value
      ensures !seeded ==> companies == old(companies) && financial == old(financial)
    {
      if |tables| == 2 {
        return false;
      }
      tables := tables + {"companies", "financial"};
      seeded := LoadSeedFiles(financialCsv, companiesCsv, toNumber);
    }

    /** Adds the financial rows and then the company rows to the session, stopping at a rejected row. */
    method AddSeedRows(financialData: seq<Row>, companiesData: seq<Row>, toNumber: string -> Option<real>)
      returns (ok: bool)
      requires pending == []
      modifies this`pending
      ensures ok == (RecordsOf(FinancialTable, financialData, toNumber).Some? &&
                     RecordsOf(CompaniesTable, companiesData, toNumber).Some?)
      ensures ok ==> pending == RecordsOf(FinancialTable, financialData, toNumber).value +
                                RecordsOf(CompaniesTable, companiesData, toNumber).value
    {
      ghost var fin := RecordsOf(FinancialTable, financialData, toNumber);
      ghost var com := RecordsOf(CompaniesTable, companiesData, toNumber);
      ok := InsertToDatabase(FinancialTable, financialData, toNumber);
      if !ok {
        return;
      }
      ghost var afterFin := pending;
      assert afterFin == fin.value;
      ok := InsertToDatabase(CompaniesTable, companiesData, toNumber);
      assert ok ==> pending == afterFin + com.value;
    }

    /** Reads both seed files, adds every row to the session and commits once. */
    method LoadSeedFiles(financialCsv: seq<Row>, companiesCsv: seq<Row>, toNumber: string -> Option<real>)
      returns (seeded: bool)
      requires Valid() && pending == []
      modifies this`companies, this`financial, this`pending
      ensures Valid() && pending == []
      ensures seeded == Seed(old(companies), old(financial), financialCsv, companiesCsv, toNumber).Some?
      ensures seeded ==>
        (companies, financial) == Seed(old(companies), old(financial), financialCsv, companiesCsv, toNumber).value
      ensures !seeded ==> companies == old(companies) && financial == old(financial)
    {
      var financialData := GetDataFromCsv(financialCsv);
      var companiesData := GetDataFromCsv(companiesCsv);
      ghost var fin := RecordsOf(FinancialTable, financialData, toNumber);
      ghost var com := RecordsOf(CompaniesTable, companiesData, toNumber);
      ghost var expected := Seed(companies, financial, financialCsv, companiesCsv, toNumber);
      SeedFromRecords(companies, financial, financialCsv, companiesCsv, toNumber, fin, com);
      var ok := AddSeedRows(financialData, companiesData, toNumber);
      if !ok {
        assert expected == None;
        pending := [];
        return false;
      }
      assert expected == Committed(companies, financial, pending);
      seeded := Commit();
    }

    /** `list_all_companies`: every company, in ascending ticker order. */
    method ListAllCompanies() returns (rows: seq<Company>)
      requires Valid()
      ensures |rows| == |companies|
      ensures IsListing(rows, companies)
    {
      rows := SortedByTicker(companies);
    }

    /**
     * `find_company_ticker_by_name`: the companies whose name contains
     * `fragment`, shown numbered, and the one picked by `choice`.
     */
    method FindCompanyTickerByName(fragment: string, choice: Option<int>) returns (matches: seq<Company>, l: Lookup)
      requires Valid()
      ensures IsMatchList(matches, companies, fragment)
      ensures l == Select(matches, choice)
    {
      var rows := ListAllCompanies();
      matches := KeepMatching(rows, c => NameMatches(c, fragment));
      forall k | 0 <= k < |matches|
        ensures matches[k].ticker in companies && companies[matches[k].ticker] == matches[k]
      {
        var j :| 0 <= j < |rows| && rows[j] == matches[k];
      }
      forall t | t in companies && NameMatches(companies[t], fragment) ensures companies[t] in matches {
        var j :| 0 <= j < |rows| && rows[j] == companies[t];
      }
      l := Select(matches, choice);
    }

    /**
     * `read_company`: the seven ratios of the single `financial` row whose ticker
     * is `LIKE` the chosen one.
     */
    method ReadCompany(fragment: string, choice: Option<int>) returns (matches: seq<Company>, l: Lookup, shown: ReadOutcome)
      requires Valid()
      ensures IsMatchList(matches, companies, fragment) && l == Select(matches, choice)
      ensures Target(l) == None ==> shown == NothingSelected
      ensures Target(l).Some? && KeysLike(financial, Target(l).value) == {} ==> shown == MissingFinancial(Target(l).value)
      ensures Target(l).Some? && |KeysLike(financial, Target(l).value)| > 1 ==>
        shown == AmbiguousFinancial(Target(l).value)
      ensures Target(l).Some? && |KeysLike(financial, Target(l).value)| == 1 ==>
        forall t :: t in KeysLike(financial, Target(l).value) ==>
          shown == Shown(Target(l).value, Unpack(l).1, Report(financial[t]))
    {
      matches, l := FindCompanyTickerByName(fragment, choice);
      var ticker := Target(l);
      if ticker == None {
        shown := NothingSelected;
      } else {
        var rows := KeysLike(financial, ticker.value);
        if rows == {} {
          shown := MissingFinancial(ticker.value);
        } else if |rows| > 1 {
          shown := AmbiguousFinancial(ticker.value);
        } else {
          var t :| t in rows;
          assert rows == {t} by {
            var rest := rows - {t};
            assert rows == rest + {t};
            assert |rest| == 0;
          }
          shown := Shown(ticker.value, Unpack(l).1, Report(financial[t]));
        }
      }
    }

    /**
     * `create_company`: one company row and one financial row under the same
     * ticker, committed together; a ticker already stored makes the commit fail.
     */
    method CreateCompany(ticker: string, name: string, sector: string, parsed: seq<Option<real>>) returns (ok: bool)
      requires Valid() && pending == [] && |parsed| == |FinancialColumns|
      modifies this`companies, this`financial, this`pending
      ensures Valid() && pending == []
      ensures ok <==> ticker !in old(companies) && ticker !in old(financial)
      ensures ok ==> companies == old(companies)[ticker := Company(ticker, Some(name), Some(sector))]
      ensures ok ==> ticker in financial && financial == old(financial)[ticker := financial[ticker]]
      ensures ok ==> financial[ticker].ticker == ticker
      ensures ok ==> forall c :: financial[ticker].Get(c) == parsed[ColumnIndex(c)]
      ensures !ok ==> companies == old(companies) && financial == old(financial)
      ensures old(Paired()) ==> Paired()
    {
      var company := Company(ticker, Some(name), Some(sector));
      var data := GetFinancialData(ticker, parsed, false);
      var row := NewFinancial(data.ticker.value, data.fields);
      NewFinancialHoldsParsed(ticker, data.fields, parsed);
      Add(CompanyRecord(company));
      Add(FinancialRecord(row));
      assert pending == [CompanyRecord(company), FinancialRecord(row)];
      CommitCompanyAndRow(companies, financial, company, row);
      ok := Commit();
    }

    /**
     * `update_company`: the parsed answers overwrite their columns in every
     * `financial` row whose ticker is `LIKE` the chosen one.
     */
    method UpdateCompany(fragment: string, choice: Option<int>, parsed: seq<Option<real>>) returns (matches: seq<Company>, l: Lookup)
      requires Valid() && |parsed| == |FinancialColumns|
      modifies this`financial
      ensures Valid() && companies == old(companies)
      ensures IsMatchList(matches, companies, fragment) && l == Select(matches, choice)
      ensures Target(l) == None ==> financial == old(financial)
      ensures financial.Keys == old(financial).Keys
      ensures Target(l).Some? ==>
        forall t :: t in old(financial) && !Like(t, Target(l).value) ==> financial[t] == old(financial)[t]
      ensures Target(l).Some? ==>
        forall t, c :: t in old(financial) && Like(t, Target(l).value) ==>
          && financial[t].ticker == t
          && financial[t].Get(c) == if parsed[ColumnIndex(c)].Some? then parsed[ColumnIndex(c)] else old(financial)[t].Get(c)
    {
      matches, l := FindCompanyTickerByName(fragment, choice);
      var ticker := Target(l);
      if ticker.Some? {
        var data := GetFinancialData(ticker.value, parsed, true);
        var updated := UpdateLike(financial, ticker.value, data.fields);
        forall t | t in financial && Like(t, ticker.value)
          ensures updated[t].ticker == t
          ensures forall c :: (updated[t].Get(c) ==
                               if parsed[ColumnIndex(c)].Some? then parsed[ColumnIndex(c)] else financial[t].Get(c))
        {
          UpdateKeepsUnparsed(financial[t], data.fields, parsed);
        }
        assert Keyed(updated, FinancialKey);
        financial := updated;
      }
    }

    /**
     * `delete_company`: every row whose ticker is `LIKE` the chosen one leaves
     * both tables, the chosen company's own rows among them; every other row stays.
     */
    method DeleteCompany(fragment: string, choice: Option<int>) returns (matches: seq<Company>, l: Lookup)
      requires Valid()
      modifies this`companies, this`financial
      ensures Valid()
      ensures IsMatchList(matches, old(companies), fragment) && l == Select(matches, choice)
      ensures Target(l) == None ==> companies == old(companies) && financial == old(financial)
      ensures Target(l).Some? ==>
        && (forall t :: t in companies <==> t in old(companies) && !Like(t, Target(l).value))
        && (forall t :: t in financial <==> t in old(financial) && !Like(t, Target(l).value))
        && (forall t :: t in companies ==> companies[t] == old(companies)[t])
        && (forall t :: t in financial ==> financial[t] == old(financial)[t])
      ensures Target(l).Some? ==> Target(l).value !in companies && Target(l).value !in financial
      ensures old(Paired()) ==> Paired()
    {
      matches, l := FindCompanyTickerByName(fragment, choice);
      var ticker := Target(l);
      if ticker.Some? {
        var cs, fs := DeleteLike(companies, ticker.value), DeleteLike(financial, ticker.value);
        assert Keyed(cs, CompanyKey) && Keyed(fs, FinancialKey);
        assert companies.Keys == financial.Keys ==> cs.Keys == fs.Keys;
        companies, financial := cs, fs;
      }
    }

    /** `get_top_ten`: the ten best-ranked rows by the named indicator; an unknown key is a `KeyError`. */
    method GetTopTen(key: string) returns (top: Option<seq<(string, Ratio)>>)
      ensures top.Some? <==> key in Indicators
      ensures top.Some? ==> IsTopTen(top.value, financial, Indicators[key])
    {
      if key !in Indicators {
        return None;
      }
      var lines := TopLines(financial, Indicators[key]);
      top := Some(lines);
    }
  }
}

=== FILE: wrappers.dfy ===
/** The optional value used for nullable columns, missing keys and absent input. */
module Wrappers {

  datatype Option<+T> = None | Some(value: T)

}
